=== FILE: README.md ===
# Memory Companion in Dafny

Memory Companion is a desktop application for the care of dementia patients.
Three kinds of users share one relational store:
- **patients** write their own journal entries;
- **caregivers** write for the one patient their row links to;
- **doctors** see every patient and create users.

Every entry and reminder belongs to a patient, and the application narrows each
screen to the patient of the session. The state-changing operations are audited.
A background checker pops up the reminders that are due in the current minute.

This project models the application object `MemoryCompanionApp` of
`MEMORY-COMPANION.py`. That object holds the session and, in the model, the tables
of the store. The model has one module per concern:

- `Records`: the rows of the schema (patients, caregivers, doctors, entries,
  reminders, audit records) and the small value types. Ids are natural numbers,
  dates are day numbers and times are `TimeOfDay` values.
- `Text`: the string work of the core:
  - `str()` and `int()` on numbers;
  - `strftime('%H:%M:%S')`;
  - the `[:5]` minute comparison of the checker;
  - the 100-character description preview;
  - the ENUM spellings that end up in audit details.
- `Scope`: authentication across the three user pools, and the three ways the
  program resolves "the session's patient":
  - the listing screens;
  - the write screens;
  - the summary screen.
- `Queries`: the SQL statements as functions over the tables:
  - `WHERE` becomes `Filter`, `ORDER BY` becomes `SortBy`, `LIMIT` becomes `Head`;
  - the entry and reminder listings, the welcome counters and the patient cards;
  - the reminder flag updates;
  - the notifications one pass of the checker hands out.
- `Summary`: the grouped counts of the summary screen, their total, and the canned
  summary text with the number a reader finds in it.
- `App`: the class `MemoryCompanionApp`.
  - Its fields are the session (`currentUser`, `currentRole`, `running`), the
    tables, the audit log and the AUTO_INCREMENT counters.
  - Its methods are the operations that change them.
  - Its functions are the read-only screens.
  - `Valid()` is the schema's constraints: primary keys, UNIQUE usernames and the
    foreign keys on `patient_id`. It also requires that a logged-in session names
    a row of its own pool. Every method keeps `Valid()`.

The properties proved include:
- Login tries patients, then caregivers, then doctors, and succeeds exactly when a
  pool holds the credentials.
- With the session held, the write screens never fail, and any patient they
  resolve exists.
- A patient's listings hold only its own rows, and a caregiver's only its linked
  patient's rows.
- The welcome counters count exactly the rows that the entry and reminder screens
  list.
- The summary's total is the number of the patient's entries in the window, and
  the summary text reports that number.
- The summary's table has one row per entry type that occurs in the window, with
  that type's count. The praise sentences between its opening and closing appear
  exactly for the types that occur, carry their counts, and keep the program's
  order.
- `LIMIT 50` drops only the oldest rows.
- Completing and retiring reminders are idempotent, commute with each other, and
  only ever advance the flags.
- The checker notifies exactly for the session's reminders that are due today and
  set for the current hour and minute, with seconds ignored.

### Behaviour of the code worth knowing

The model follows the code as written, including these behaviours:

- **Doctors.** The write screens and `generate_summary` act on the first patient
  of the store; the code says "For doctors, let them select patient or use first
  patient for now" (MEMORY-COMPANION.py:608); `generate_summary` runs the same
  `LIMIT 1` query at line 944. A doctor's listing scope is
  empty, so `load_entries` takes its "Doctor view - show recent entries from all
  patients" branch (line 1201): the 50 newest entries of every patient. For the
  same reason `show_welcome` shows a doctor no counters
  (`ScopesAgreeExceptForDoctors`).
- **Unlinked caregivers.** A caregiver whose row has no `patient_id` also gets no
  listing scope (lines 486-493). It falls into the same 50-newest-of-everyone
  listing, not an empty one (`EntryListing`). It can still save entries and
  reminders, and they are stored with a NULL `patient_id` (lines 601-606).
- **An unlinked caregiver's reminders.** Without a patient, `show_reminders`
  takes its `user_type`/`user_id` branch (lines 681-694). An unlinked caregiver
  therefore sees the reminders it wrote itself (`ShowReminders`).
- **Audit failures.** `log_action` swallows store errors (lines 273-284). With
  nobody logged in, the NOT NULL user columns reject the row, and the operation
  goes ahead without an audit record (`AuditFor`).
- **Logout.** `logout` writes no audit record (lines 1505-1508).
- **No ownership check.** `complete_reminder` and `delete_reminder` update the
  row with the given id whoever owns it (lines 862-893).
- **Retired reminders can be completed.** The UPDATE of `complete_reminder` has
  no `is_active` condition (lines 866-869), so it also completes a retired
  reminder (`MarkCompleted`).
- **Unreachable crash.** `save_entry` and `save_reminder` call `fetchone()[0]`
  on the caregiver query (line 606). That raises `TypeError` for a caregiver with
  no row. `WriteScope` keeps this path, and it cannot be reached from a valid
  state (`WriteScopeInStore`).

## Model

| member | source | states |
|---|---|---|
| Text.NatToString | MEMORY-COMPANION.py:873 | `str()` of a count or id is a non-empty run of digits, one digit exactly below ten, with no leading zero |
| Text.NatToStringRoundTrip | MEMORY-COMPANION.py:1088 | reading back the digits `str()` wrote gives the number again |
| Text.ParseInt | MEMORY-COMPANION.py:1401-1407 | `int()` of the typed patient id accepts exactly an optional sign followed by digits; an unsigned numeral is non-negative |
| Text.ParseIntOfNatToString | MEMORY-COMPANION.py:1401-1407 | `int(str(n)) == n` |
| Text.ParseIntSigned | MEMORY-COMPANION.py:1401-1407 | a `+` in front of the digits keeps their value, a `-` negates it |
| Text.DigitsValueLeadingZero | MEMORY-COMPANION.py:1401-1407 | a leading zero adds nothing to a digit run's value |
| Text.ParseIntLeadingZero | MEMORY-COMPANION.py:1401-1407 | `int()` reads a zero-padded numeral as the number without the padding |
| Text.ParseIntExamples | MEMORY-COMPANION.py:1401-1407 | a typed "5", "+5" and "05" are read as 5 and "-5" as -5; "5a" and "+" are rejected |
| Text.NatToStringInjective | MEMORY-COMPANION.py:873 | distinct ids give distinct audit details |
| Text.TwoDigits | MEMORY-COMPANION.py:1476-1477 | `%H`, `%M` and `%S` are two digits |
| Text.TwoDigitsInjective | MEMORY-COMPANION.py:1476-1477 | two zero-padded fields are equal exactly when their numbers are |
| Text.FormatTime | MEMORY-COMPANION.py:1463 | `HH:MM:SS` has eight characters, with colons at 2 and 5 and digits elsewhere |
| Text.RoleLabel | MEMORY-COMPANION.py:363-393 | the role in the LOGIN detail ("Patient", "Caregiver", "Doctor") is its ENUM value with a capital first letter |
| Text.EntryTypeName | MEMORY-COMPANION.py:110 | the ENUM value of an entry type, as the ADD_ENTRY detail writes it (line 621), is a non-empty lower-case word |
| Text.Head | MEMORY-COMPANION.py:1478 | Python's `s[:n]`, and `LIMIT n` (line 1206), is the prefix of length `min(len(s), n)` |
| Text.SameMinuteTextIff | MEMORY-COMPANION.py:1473-1478 | comparing the first five characters of two formatted times is equal hour and minute, seconds ignored |
| Text.Preview | MEMORY-COMPANION.py:1065 | the preview is the description up to 100 characters, else its first 100 characters followed by `...` |
| Text.PreviewKeepsOpening | MEMORY-COMPANION.py:1065 | the preview opens with the description's first characters and is short exactly when the description is |
| Scope.Truthy | MEMORY-COMPANION.py:495 | `if patient_id:` holds exactly for a present, non-zero id |
| Scope.FindPatient | MEMORY-COMPANION.py:354-359 | no row comes back exactly when no patient row matches both username and password; a row that comes back is a matching row's id and name |
| Scope.FindCaregiver | MEMORY-COMPANION.py:369-374 | the same for the caregivers pool |
| Scope.FindDoctor | MEMORY-COMPANION.py:384-389 | the same for the doctors pool |
| Scope.Authenticate | MEMORY-COMPANION.py:354-397 | login answers as a patient exactly when the patients pool matches; as a caregiver exactly when it does not and the caregivers pool does; as a doctor exactly when neither does and the doctors pool does |
| Scope.AuthenticateSoundAndComplete | MEMORY-COMPANION.py:345-400 | login finds an identity exactly when some pool holds the credentials; the identity is a row of the pool it names; a later pool is reached only when earlier pools have no match |
| Scope.CaregiverLink | MEMORY-COMPANION.py:486-491 | no answer exactly when no caregiver row has the id; otherwise the `patient_id` of such a row |
| Scope.ListingScope | MEMORY-COMPANION.py:486-493 | a patient lists its own rows; a caregiver with a row lists that row's `patient_id`, and any scope a caregiver gets is that link; a doctor or no session gets none |
| Scope.FirstPatient | MEMORY-COMPANION.py:609-611 | `SELECT id FROM patients LIMIT 1` gives nothing exactly for an empty table, and otherwise the id of a patient row |
| Scope.WriteScope | MEMORY-COMPANION.py:601-611 | fails exactly for a caregiver with no row; a patient writes for itself, a caregiver for its row's link, anyone else for the first patient |
| Scope.SummaryScope | MEMORY-COMPANION.py:936-946 | a patient summarises itself, a caregiver its listing scope, anyone else the first patient |
| Scope.ListingScopeConfined | MEMORY-COMPANION.py:486-493 | a listing scope is the patient itself or the caregiver's stored link; a caregiver with no row and a doctor get none |
| Scope.ScopesAgreeExceptForDoctors | MEMORY-COMPANION.py:601-611 | write, summary and listing scopes agree for patients and registered caregivers; a doctor lists nothing yet writes to and summarises the first patient; a caregiver without a row fails to write |
| Scope.Menu | MEMORY-COMPANION.py:436-449 | four common items first; patient information exactly for caregivers and doctors; user creation and the audit log exactly for doctors |
| Queries.Filter | MEMORY-COMPANION.py:1200-1214 | `WHERE` keeps each satisfying row as often as it occurs, and no other row |
| Queries.Insert | MEMORY-COMPANION.py:1206 | inserting into an ordered result keeps it ordered and adds exactly the one row |
| Queries.SortBy | MEMORY-COMPANION.py:1206 | `ORDER BY` is an ascending permutation of the rows |
| Queries.HeadKeeps | MEMORY-COMPANION.py:1206 | `LIMIT` keeps the order and drops rows only |
| Queries.HeadOfSortedIsTopK | MEMORY-COMPANION.py:1206 | every row `LIMIT` drops from an ordered result ranks no better than every row it keeps |
| Queries.CollectAppend | MEMORY-COMPANION.py:1471-1483 | the checker's loop over two batches emits the first batch's output followed by the second's |
| Queries.CollectMembership | MEMORY-COMPANION.py:1471-1483 | the loop emits exactly the images of the rows that pass its tests |
| Queries.CollectAfterFilter | MEMORY-COMPANION.py:1464-1483 | filtering first by a condition that every emitting row meets changes nothing |
| Queries.Seconds | MEMORY-COMPANION.py:114 | a time of day of the model (below 24:00) is below 86400 seconds since midnight |
| Queries.StampOrder | MEMORY-COMPANION.py:1206 | the combined stamp orders by date and then by time of day |
| Queries.PatientListing | MEMORY-COMPANION.py:1185-1199 | newest first; exactly the patient's rows that pass the type filter, with their multiplicities |
| Queries.RecentListing | MEMORY-COMPANION.py:1200-1214 | newest first; only rows of the table that pass the filter; the size is `min(matching rows, 50)` |
| Queries.RecentListingKeepsNewest | MEMORY-COMPANION.py:1200-1214 | every matching row left out by `LIMIT 50` is no newer than every row shown |
| Queries.EntryListing | MEMORY-COMPANION.py:1185-1214 | newest first and only selected rows; with a truthy patient id exactly that patient's rows, otherwise the 50 newest matching rows: `min(matching, 50)` of them, none left out newer than one shown |
| Queries.ListingConfinedToSession | MEMORY-COMPANION.py:1176-1214 | a patient sees only its own rows, a caregiver only rows of its linked patient, a doctor the capped listing, and nobody a row the table lacks |
| Queries.NewestEntryListedFirst | MEMORY-COMPANION.py:1185-1192 | an entry no older than the patient's other entries heads the patient's listing |
| Queries.ReminderListing | MEMORY-COMPANION.py:681-694 | soonest first; exactly the shown reminders with their multiplicities; only active ones |
| Queries.WelcomeStats | MEMORY-COMPANION.py:486-508 | counters exist exactly when the patient id is truthy |
| Queries.WelcomeCountMatchesListing | MEMORY-COMPANION.py:503-508 | the pending-reminder counter is the number of listed reminders that are not completed |
| Queries.WelcomeTodayMatchesListing | MEMORY-COMPANION.py:497-501 | the today counter is the number of the patient's listed entries dated today |
| Queries.WithoutEntry | MEMORY-COMPANION.py:1286 | `DELETE ... WHERE id` removes every row with that id and keeps all others |
| Queries.Cards | MEMORY-COMPANION.py:1318-1322 | one card per patient row, in order, without the credentials |
| Queries.CardsOfOnePatient | MEMORY-COMPANION.py:1309-1315 | the join on one patient yields exactly that patient's cards, all of them, one per patient row with that id |
| Queries.PatientCards | MEMORY-COMPANION.py:1307-1322 | a caregiver sees exactly the cards of its linked patient, one per patient row with that id, and nothing when unlinked; anyone else sees every patient's card in order |
| Queries.MarkCompleted | MEMORY-COMPANION.py:866-869 | the rows with that id become completed; every other row is unchanged |
| Queries.Retire | MEMORY-COMPANION.py:883-886 | the rows with that id become inactive; every other row is unchanged |
| Queries.MarkCompletedIdempotent | MEMORY-COMPANION.py:866-869 | completing twice is completing once |
| Queries.RetireIdempotent | MEMORY-COMPANION.py:883-886 | retiring twice is retiring once |
| Queries.FlagUpdatesCommute | MEMORY-COMPANION.py:862-893 | completing and retiring commute |
| Queries.FlagsAdvanceTransitive | MEMORY-COMPANION.py:862-893 | the one-way flag life cycle composes |
| Queries.UpdatesAdvanceFlags | MEMORY-COMPANION.py:862-893 | completion, retirement and new rows never reactivate or un-complete a reminder |
| Queries.DueRows | MEMORY-COMPANION.py:1465-1469 | the checker fetches each reminder due today, active and not completed, as often as the table holds it, and no other |
| Queries.Notifications | MEMORY-COMPANION.py:1471-1483 | at most one notification per reminder; each is the text of a reminder that fires now, and every reminder that fires gives one |
| Queries.NotificationsStep | MEMORY-COMPANION.py:1471-1483 | each further fetched row adds its notification exactly when it is set for the current minute and owned by the session |
| Queries.NotificationsAppend | MEMORY-COMPANION.py:1471-1483 | the notifications of two batches are the first batch's followed by the second's |
| Queries.NotificationsOfDueRow | MEMORY-COMPANION.py:1472-1483 | a fetched row notifies exactly when its minute matches and the session owns it |
| Queries.NotificationsExact | MEMORY-COMPANION.py:1464-1483 | a notification comes out exactly for a reminder due today, active, not completed, set for the current hour and minute and owned by the session |
| Queries.NoOwnerNoNotifications | MEMORY-COMPANION.py:1480 | with no session, or one that owns none of the rows, nothing is notified |
| Queries.NotificationsOfDueRows | MEMORY-COMPANION.py:1464-1469 | the checker's query narrows the rows without changing what the loop delivers |
| Queries.FireWindowExample | MEMORY-COMPANION.py:1473-1480 | a 14:30:00 reminder fires for its owner at 14:30:45, not at 14:31:01, and not for another role |
| Summary.InWindow | MEMORY-COMPANION.py:955-975 | the daily, weekly and monthly date conditions; each window holds today and lies within the last 30 days |
| Summary.WindowsNest | MEMORY-COMPANION.py:955-975 | today's window lies within the last 7 days', and that within the last 30 days' |
| Summary.Groups | MEMORY-COMPANION.py:955-975 | each grouped row is a listed type with a positive count equal to that type's count in the window |
| Summary.GroupsComplete | MEMORY-COMPANION.py:955-975 | every listed type that occurs in the window has its row, with its count |
| Summary.GroupsDistinct | MEMORY-COMPANION.py:955-975 | `GROUP BY` over a list of distinct types gives each type at most one row |
| Summary.EntryTypesDistinct | MEMORY-COMPANION.py:110 | the type list names no type twice |
| Summary.GroupTotalIsSum | MEMORY-COMPANION.py:991 | the sum over the grouped rows is the sum of all per-type counts |
| Summary.SumOfTypeCountsStep | MEMORY-COMPANION.py:955-975 | removing the first entry lowers the per-type sum by its occurrences in the type list |
| Summary.EachTypeListedOnce | MEMORY-COMPANION.py:110 | the type list names every entry type exactly once |
| Summary.SumOfTypeCountsIsWindowCount | MEMORY-COMPANION.py:955-975 | the per-type counts add up to the number of the patient's entries in the window |
| Summary.ZeroCountsSumToZero | MEMORY-COMPANION.py:955-975 | no entries give zero for every type |
| Summary.GroupedTotalCountsWindow | MEMORY-COMPANION.py:955-991 | the total shown is the number of the patient's entries in the window |
| Summary.ToDict | MEMORY-COMPANION.py:1091 | the dictionary's keys are exactly the types of the grouped rows, and a type's value is the count of its last row |
| Summary.WindowCountsInDict | MEMORY-COMPANION.py:955-1091 | the summary's dictionary holds exactly the types that occur in the window, each with its count |
| Summary.Praises | MEMORY-COMPANION.py:1093-1103 | at most four sentences, and none exactly when no medication, social, activity, meal or observation entry is counted |
| Summary.Praise | MEMORY-COMPANION.py:1093-1103 | the praise text is empty exactly when none of those types is counted |
| Summary.PraisesExact | MEMORY-COMPANION.py:1093-1103 | the medication, social and observation sentences appear exactly when their type is a key and carry its count; the routine sentence appears exactly when activity or meal is a key |
| Summary.PraisesInOrder | MEMORY-COMPANION.py:1093-1103 | the sentences come in the program's order: medication, social, routine, observation |
| Summary.SummaryPraisesWindow | MEMORY-COMPANION.py:955-1103 | the summary praises medication, social contact and observations exactly when they occur in the window, with their counts, and the routine exactly when activities or meals occur |
| Summary.AfterTotal | MEMORY-COMPANION.py:1088 | the opening continues after the number with a space |
| Summary.AiSummary | MEMORY-COMPANION.py:1084-1109 | no rows give the fixed encouragement text; otherwise the text opens with the total sentence, ends with the closing sentence, and between them holds exactly the praise of the rows' dictionary |
| Summary.LeadingDigits | MEMORY-COMPANION.py:1088 | the leading digits are a prefix made only of digits |
| Summary.LeadingDigitsOfNumeral | MEMORY-COMPANION.py:1088 | a numeral followed by a non-digit reads back as that numeral |
| Summary.ReportedTotalOfOpening | MEMORY-COMPANION.py:1088 | the opening sentence reports exactly its number |
| Summary.SummaryReportsTotal | MEMORY-COMPANION.py:1084-1109 | a non-empty summary reports exactly the total it was given |
| Summary.SummaryOf | MEMORY-COMPANION.py:948-1011 | no data exactly without a truthy patient id; "no entries" only for an empty window; a report's table is the grouped rows, one per type; its total is the window count, positive; its text is `generate_ai_summary`'s text for that table and total, which reports the total and holds the praise of the table |
| App.StoredPatientsTruthy | MEMORY-COMPANION.py:62 | AUTO_INCREMENT ids start at 1, so `if patient_id:` never turns away a stored patient's id |
| App.CaregiverRowHasLink | MEMORY-COMPANION.py:603-606 | a caregiver with a row always gets an answer to its link query |
| App.WriteScopeInStore | MEMORY-COMPANION.py:601-611 | with the session held, the write screens never fail, and any patient they resolve exists |
| App.PatientsGrow | MEMORY-COMPANION.py:1394-1398 | a new patient row keeps every existing patient reference valid |
| App.PatientAdded | MEMORY-COMPANION.py:1394-1398 | a patient inserted with the next id and a free username keeps every table's constraints and the session |
| App.CaregiverAdded | MEMORY-COMPANION.py:1399-1414 | a caregiver inserted with the next id, a free username and an accepted link keeps the caregivers table and the session |
| App.DoctorAdded | MEMORY-COMPANION.py:1415-1418 | a doctor inserted with the next id and a free username keeps the doctors table and the session |
| App.EntryTableAppend | MEMORY-COMPANION.py:613-621 | an entry with the next id and an existing patient keeps the entries table's constraints |
| App.EntryTableDelete | MEMORY-COMPANION.py:1286 | deleting entries keeps the entries table's constraints |
| App.ReminderTableAppend | MEMORY-COMPANION.py:847-855 | a reminder with the next id and an existing patient keeps the reminders table's constraints |
| App.ReminderTableSameKeys | MEMORY-COMPANION.py:862-893 | updates that keep ids and patients keep the reminders table's constraints |
| App.RequestedLink | MEMORY-COMPANION.py:1401-1411 | the typed id is rejected exactly when it is non-empty and not an integer; a typed integer becomes the link; an empty field links the first patient, or none |
| App.MemoryCompanionApp.constructor | MEMORY-COMPANION.py:11-30 | nobody logged in, the checker running, every table empty |
| App.MemoryCompanionApp.AuditFor | MEMORY-COMPANION.py:273-284 | one audit row carrying the session, the action and the details when someone is logged in, none otherwise |
| App.MemoryCompanionApp.LogAction | MEMORY-COMPANION.py:273-284 | the audit log grows by exactly that row, or not at all without a session |
| App.MemoryCompanionApp.Login | MEMORY-COMPANION.py:345-402 | empty fields and unknown credentials leave session and log unchanged; otherwise the first matching pool becomes the session and a LOGIN row is audited |
| App.MemoryCompanionApp.SignIn | MEMORY-COMPANION.py:392-397 | the identity becomes the session and the LOGIN row is appended |
| App.MemoryCompanionApp.SaveEntry | MEMORY-COMPANION.py:592-625 | missing title, date or time saves nothing; without a session the store refuses; otherwise exactly one new entry with a fresh id for the resolved patient, plus its audit row |
| App.MemoryCompanionApp.InsertEntry | MEMORY-COMPANION.py:613-623 | the row is appended under the next id, the counter advances, and the ADD_ENTRY row is audited |
| App.MemoryCompanionApp.SaveReminder | MEMORY-COMPANION.py:827-860 | the same checks as SaveEntry; the new reminder is active and not completed |
| App.MemoryCompanionApp.InsertReminder | MEMORY-COMPANION.py:847-857 | the row is appended under the next id, the counter advances, and the ADD_REMINDER row is audited |
| App.MemoryCompanionApp.CompleteReminder | MEMORY-COMPANION.py:862-876 | the reminders become the completed update, whoever owns the row; the flags only advance; the action is audited |
| App.MemoryCompanionApp.DeleteReminder | MEMORY-COMPANION.py:878-893 | nothing happens unless confirmed; otherwise the soft delete and its audit row |
| App.MemoryCompanionApp.DeleteEntry | MEMORY-COMPANION.py:1281-1293 | nothing happens unless confirmed; otherwise the table is the `DELETE` of the old one: the rows with that id are gone and the others keep their order; the action is audited |
| App.MemoryCompanionApp.SaveUser | MEMORY-COMPANION.py:1382-1426 | each refusal (missing fields, non-numeric id, taken username, dangling link) holds exactly under its condition and changes nothing; otherwise exactly one new row with defaults in the role's table, plus the ADD_USER row |
| App.MemoryCompanionApp.AddPatient | MEMORY-COMPANION.py:1394-1398 | refused exactly when the username is taken; otherwise one new patient row with a fresh id |
| App.MemoryCompanionApp.AddCaregiver | MEMORY-COMPANION.py:1399-1414 | non-numeric id and refusals exactly under their conditions; otherwise one new caregiver row with the stored link |
| App.MemoryCompanionApp.InsertCaregiver | MEMORY-COMPANION.py:1412-1414 | the row is appended under the next id and audited |
| App.MemoryCompanionApp.AddDoctor | MEMORY-COMPANION.py:1415-1418 | refused exactly when the username is taken; otherwise one new doctor row with a fresh id |
| App.MemoryCompanionApp.Logout | MEMORY-COMPANION.py:1505-1508 | the session is cleared |
| App.MemoryCompanionApp.LoadEntries | MEMORY-COMPANION.py:1167-1226 | newest first, table rows passing the filter, none listed more often than the table holds it; a patient sees only its own rows and all of them, a caregiver only its linked patient's; a doctor or an unlinked caregiver the 50 newest matching rows of everyone, none left out newer than one shown |
| App.MemoryCompanionApp.ShowReminders | MEMORY-COMPANION.py:627-706 | soonest first, active only; exactly the patient's reminders, or without a patient exactly the session's own; nothing without a session |
| App.MemoryCompanionApp.WelcomeScreen | MEMORY-COMPANION.py:464-516 | counters exactly for a truthy patient (never for a doctor); they count today's listed entries and the pending listed reminders |
| App.MemoryCompanionApp.ShowPatientInfo | MEMORY-COMPANION.py:1295-1334 | a caregiver sees exactly its linked patient's cards, one per patient row with that id; anyone else every patient's card in order |
| App.MemoryCompanionApp.GenerateSummary | MEMORY-COMPANION.py:928-1082 | the summary scope decides the outcome: no data exactly without a truthy patient (for a caregiver, exactly without a truthy link), "no entries" exactly when that patient's window is empty, otherwise a report whose total is the window count and whose table is the grouped rows; a doctor's scope is the first patient; the text is `generate_ai_summary`'s text for the table and total |
| App.MemoryCompanionApp.Poll | MEMORY-COMPANION.py:1457-1490 | one pass delivers exactly the notifications of the session's reminders due this minute, in the fetched order; nothing once stopped |
| App.MemoryCompanionApp.OnClosing | MEMORY-COMPANION.py:1494-1503 | a confirmed close stops the checker; a cancelled one changes nothing |

## Left out

- The Tkinter screens, widgets, dialogs and colours are not modelled. Confirmation dialogs become a `confirmed` parameter.
- The MySQL connection is not modelled. Store errors other than the UNIQUE, FOREIGN KEY and NOT NULL refusals are not modelled, and neither is the per-operation rollback.
- The checker's thread, its 30-second sleep and `root.after` are not modelled. `Poll` is one pass of the loop, and concurrency between the checker and the screens is not modelled.
- The clock is a parameter. `today` and `now` are passed in, and dates are day numbers. SQL's `CURDATE()` (MEMORY-COMPANION.py:498) and Python's `datetime.now().date()` both become `today`. The weekly and monthly windows' `datetime.now() - timedelta(days=7)` and `timedelta(days=30)` (lines 963, 970) become `today - 7` and `today - 30`.
- Parsing the date and time text of the forms is left out. The model takes already parsed `Option` values, where None is a missing or unparseable field. The driver's conversion of TIME values to strings is left out as well.
- `strip()` is left out. The add-user form strips its five fields (MEMORY-COMPANION.py:1384-1388), and the entry and reminder forms strip their descriptions (587, 817); the model takes those fields already stripped. The other fields reach the program unstripped, and the model takes them as they are: login's username and password (327), and the title, date and time of the entry and reminder forms (586-588, 816-818). `int()`'s surrounding-whitespace form is left out with `strip()`.
- Creation timestamps and the ids of audit rows are not modelled.
- `create_sample_data` and the `consent_logs` table are not modelled.
- `show_audit_logs` is not modelled; it is a read-only listing of the audit table.
- The recent-activity list of the summary screen (its `LIMIT 5` queries) is not modelled; only its description preview (`Text.Preview`) is.
- The per-role lists of selectable entry types on the entry form are not modelled.
- Passwords are plain text. The store compares usernames and passwords with SQL `=` under the column collation, and MySQL's default collations ignore case; the model compares them by exact equality. Collation-dependent matching is left out, for the login lookups and for the UNIQUE username refusals alike.
- Times of day are represented only below 24:00. MySQL's TIME column holds -838:59:59 to 838:59:59, and the forms store free text, so a time such as 25:00 can be stored. The model does not represent it.
- Three queries have no ORDER BY, and the model assumes MySQL returns their rows in a fixed order:
  - `SELECT id FROM patients LIMIT 1` (609-611, 843-844, 944): `FirstPatient` takes the head of the table, in insertion order.
  - `SELECT ... FROM patients` of the patient information screen (1319-1322): `Cards`, `PatientCards` and `ShowPatientInfo` keep the table's order.
  - `GROUP BY entry_type` of the summary (957-975): `Groups`, and through it `SummaryOf`, list the types in ENUM order. MySQL 8 does not sort `GROUP BY` results, so the real order of the rows, and of the summary table, may differ. The counts, and the praise text, do not depend on it.
- `App.MemoryCompanionApp.Poll`: covers one pass of `checker` only, not the repeated passes of the `while self.running` loop.
- Text.ParseInt: `int()` also accepts numerals grouped with underscores and numerals in non-ASCII digits. The model parses those to None, that is, it rejects them.
- App.MemoryCompanionApp.constructor: the program starts from the persisted store, seeded by `create_sample_data`. The model starts from empty tables.

=== FILE: App.dfy ===
/** The application object: the session (who is logged in), the store's tables and
    their AUTO_INCREMENT counters, and the operations of MemoryCompanionApp that
    change them. The screens that only read the store are functions of the object's
    state, built from the queries of the Queries and Summary modules. */
module App {
  import opened Records
  import opened Text
  import opened Scope
  import opened Queries
  import opened Summary

  // ------------------------------------------------------------ table constraints

  predicate HasPatient(ps: seq<PatientRow>, id: Id) {
    exists i :: 0 <= i < |ps| && ps[i].id == id
  }

  predicate HasCaregiver(cs: seq<CaregiverRow>, id: Id) {
    exists i :: 0 <= i < |cs| && cs[i].id == id
  }

  predicate HasDoctor(ds: seq<DoctorRow>, id: Id) {
    exists i :: 0 <= i < |ds| && ds[i].id == id
  }

  predicate PatientNameTaken(ps: seq<PatientRow>, username: string) {
    exists i :: 0 <= i < |ps| && ps[i].username == username
  }

  predicate CaregiverNameTaken(cs: seq<CaregiverRow>, username: string) {
    exists i :: 0 <= i < |cs| && cs[i].username == username
  }

  predicate DoctorNameTaken(ds: seq<DoctorRow>, username: string) {
    exists i :: 0 <= i < |ds| && ds[i].username == username
  }

  /** `id INT AUTO_INCREMENT PRIMARY KEY, username ... UNIQUE`: ids below the counter
      and distinct, usernames distinct within the table. */
  predicate PatientTable(ps: seq<PatientRow>, next: Id) {
    1 <= next
    && (forall i :: 0 <= i < |ps| ==> 1 <= ps[i].id < next)
    && (forall i, j :: 0 <= i < j < |ps| ==> ps[i].id != ps[j].id && ps[i].username != ps[j].username)
  }

  /** The caregivers table, with `FOREIGN KEY (patient_id) REFERENCES patients(id)`. */
  predicate CaregiverTable(cs: seq<CaregiverRow>, next: Id, ps: seq<PatientRow>) {
    1 <= next
    && (forall i :: 0 <= i < |cs| ==> 1 <= cs[i].id < next)
    && (forall i, j :: 0 <= i < j < |cs| ==> cs[i].id != cs[j].id && cs[i].username != cs[j].username)
    && (forall i :: 0 <= i < |cs| && cs[i].patientId.Some? ==> HasPatient(ps, cs[i].patientId.value))
  }

  predicate DoctorTable(ds: seq<DoctorRow>, next: Id) {
    1 <= next
    && (forall i :: 0 <= i < |ds| ==> 1 <= ds[i].id < next)
    && (forall i, j :: 0 <= i < j < |ds| ==> ds[i].id != ds[j].id && ds[i].username != ds[j].username)
  }

  /** The entries table with its foreign key on patient_id; an id names one row. */
  predicate EntryTable(es: seq<Entry>, next: Id, ps: seq<PatientRow>) {
    1 <= next
    && (forall e :: e in es ==> 1 <= e.id < next)
    && (forall e, f :: e in es && f in es && e.id == f.id ==> e == f)
    && (forall e :: e in es && e.patientId.Some? ==> HasPatient(ps, e.patientId.value))
  }

  /** The reminders table with its foreign key on patient_id. */
  predicate ReminderTable(rs: seq<Reminder>, next: Id, ps: seq<PatientRow>) {
    1 <= next
    && (forall i :: 0 <= i < |rs| ==> 1 <= rs[i].id < next)
    && (forall i, j :: 0 <= i < j < |rs| ==> rs[i].id != rs[j].id)
    && (forall i :: 0 <= i < |rs| && rs[i].patientId.Some? ==> HasPatient(ps, rs[i].patientId.value))
  }

  /** A logged-in session names a row of its own pool; role and user are set and
      cleared together. */
  predicate SessionHeld(role: Option<Role>, user: Option<Id>,
                        ps: seq<PatientRow>, cs: seq<CaregiverRow>, ds: seq<DoctorRow>) {
    (role.Some? <==> user.Some?)
    && (role == Some(Patient) ==> HasPatient(ps, user.value))
    && (role == Some(Caregiver) ==> HasCaregiver(cs, user.value))
    && (role == Some(Doctor) ==> HasDoctor(ds, user.value))
  }

  /** AUTO_INCREMENT ids start at 1, so `if patient_id:` never turns away the id
      of a stored patient. */
  lemma StoredPatientsTruthy(ps: seq<PatientRow>, next: Id)
    requires PatientTable(ps, next)
    ensures forall i :: 0 <= i < |ps| ==> Truthy(Some(ps[i].id))
  {
  }

  /** A caregiver that has a row always has a link answer: the TypeError branch of
      the write screens needs a caregiver id with no row. */
  lemma CaregiverRowHasLink(cs: seq<CaregiverRow>, id: Id)
    requires HasCaregiver(cs, id)
    ensures CaregiverLink(cs, id).Some?
  {
  }

  /** With the session held, the write screens always resolve their patient, and the
      patient they resolve exists: the TypeError branch of save_entry and
      save_reminder (a caregiver session without a caregivers row) cannot be reached
      through the application's own operations, and the foreign key on patient_id
      never rejects the insert. */
  lemma WriteScopeInStore(role: Option<Role>, user: Option<Id>,
                          ps: seq<PatientRow>, cs: seq<CaregiverRow>, ds: seq<DoctorRow>, nextCaregiver: Id)
    requires SessionHeld(role, user, ps, cs, ds) && CaregiverTable(cs, nextCaregiver, ps)
    ensures WriteScope(role, user, cs, ps).Resolved?
    ensures var pid := WriteScope(role, user, cs, ps).patientId;
      pid.Some? ==> HasPatient(ps, pid.value)
  {
    if role == Some(Caregiver) {
      CaregiverRowHasLink(cs, user.value);
    }
  }

  /** A new patient row keeps every patient reference valid. */
  lemma PatientsGrow(ps: seq<PatientRow>, row: PatientRow)
    ensures forall id :: HasPatient(ps, id) ==> HasPatient(ps + [row], id)
  {
    forall id | HasPatient(ps, id) ensures HasPatient(ps + [row], id) {
      var i :| 0 <= i < |ps| && ps[i].id == id;
      assert (ps + [row])[i] == ps[i];
    }
  }

  /** A new patient row with the next id and a free username keeps the patients
      table's constraints, every foreign key into it, and the session. */
  lemma PatientAdded(ps: seq<PatientRow>, next: Id, row: PatientRow,
                     cs: seq<CaregiverRow>, nextCaregiver: Id, es: seq<Entry>, nextEntry: Id,
                     rs: seq<Reminder>, nextReminder: Id, role: Option<Role>, user: Option<Id>, ds: seq<DoctorRow>)
    requires PatientTable(ps, next) && CaregiverTable(cs, nextCaregiver, ps)
    requires EntryTable(es, nextEntry, ps) && ReminderTable(rs, nextReminder, ps) && SessionHeld(role, user, ps, cs, ds)
    requires row.id == next && !PatientNameTaken(ps, row.username)
    ensures !HasPatient(ps, next)
    ensures PatientTable(ps + [row], next + 1) && CaregiverTable(cs, nextCaregiver, ps + [row])
    ensures EntryTable(es, nextEntry, ps + [row]) && ReminderTable(rs, nextReminder, ps + [row])
    ensures SessionHeld(role, user, ps + [row], cs, ds)
  {
    PatientsGrow(ps, row);
  }

  /** A new caregiver row with the next id, a free username and an accepted link
      keeps the caregivers table's constraints and the session. */
  lemma CaregiverAdded(cs: seq<CaregiverRow>, next: Id, ps: seq<PatientRow>, row: CaregiverRow,
                       role: Option<Role>, user: Option<Id>, ds: seq<DoctorRow>)
    requires CaregiverTable(cs, next, ps) && SessionHeld(role, user, ps, cs, ds)
    requires row.id == next && !CaregiverNameTaken(cs, row.username)
    requires row.patientId.Some? ==> HasPatient(ps, row.patientId.value)
    ensures !HasCaregiver(cs, next)
    ensures CaregiverTable(cs + [row], next + 1, ps)
    ensures SessionHeld(role, user, ps, cs + [row], ds)
  {
    assert forall i :: 0 <= i < |cs| ==> (cs + [row])[i] == cs[i];
  }

  /** A new doctor row with the next id and a free username keeps the doctors
      table's constraints and the session. */
  lemma DoctorAdded(ds: seq<DoctorRow>, next: Id, row: DoctorRow,
                    role: Option<Role>, user: Option<Id>, ps: seq<PatientRow>, cs: seq<CaregiverRow>)
    requires DoctorTable(ds, next) && SessionHeld(role, user, ps, cs, ds)
    requires row.id == next && !DoctorNameTaken(ds, row.username)
    ensures !HasDoctor(ds, next)
    ensures DoctorTable(ds + [row], next + 1)
    ensures SessionHeld(role, user, ps, cs, ds + [row])
  {
    assert forall i :: 0 <= i < |ds| ==> (ds + [row])[i] == ds[i];
  }

  /** Appending a row with the next id and an existing patient keeps the entries
      table's constraints. */
  lemma EntryTableAppend(es: seq<Entry>, next: Id, ps: seq<PatientRow>, e: Entry)
    requires EntryTable(es, next, ps)
    requires e.id == next && (e.patientId.Some? ==> HasPatient(ps, e.patientId.value))
    ensures EntryTable(es + [e], next + 1, ps)
  {
  }

  /** Deleting rows keeps the entries table's constraints. */
  lemma EntryTableDelete(es: seq<Entry>, next: Id, ps: seq<PatientRow>, id: Id)
    requires EntryTable(es, next, ps)
    ensures EntryTable(WithoutEntry(es, id), next, ps)
  {
  }

  lemma ReminderTableAppend(rs: seq<Reminder>, next: Id, ps: seq<PatientRow>, x: Reminder)
    requires ReminderTable(rs, next, ps)
    requires x.id == next && (x.patientId.Some? ==> HasPatient(ps, x.patientId.value))
    ensures ReminderTable(rs + [x], next + 1, ps)
  {
  }

  /** Updates that keep every row's place, id and patient keep the reminders
      table's constraints. */
  lemma ReminderTableSameKeys(rs: seq<Reminder>, updated: seq<Reminder>, next: Id, ps: seq<PatientRow>)
    requires ReminderTable(rs, next, ps)
    requires |updated| == |rs|
    requires forall i :: 0 <= i < |rs| ==> updated[i].id == rs[i].id && updated[i].patientId == rs[i].patientId
    ensures ReminderTable(updated, next, ps)
  {
  }

  /** The patient_id the caregiver branch of save_user inserts: the typed number
      when the field is filled, the first patient when it is empty; None when int()
      rejects the text. */
  function RequestedLink(pidText: string, ps: seq<PatientRow>): (r: Option<Option<int>>)
    ensures r.None? <==> pidText != [] && ParseInt(pidText).None?
    ensures pidText == [] ==> r == Some(if ps == [] then None else Some(ps[0].id as int))
    ensures pidText != [] && ParseInt(pidText).Some? ==> r == Some(ParseInt(pidText))
  {
    if pidText == [] then
      Some(if ps == [] then None else Some(ps[0].id as int))
    else
      match ParseInt(pidText)
      case None => None
      case Some(v) => Some(Some(v))
  }

  /** The foreign key accepts NULL or the id of an existing patient. */
  predicate LinkAccepted(link: Option<int>, ps: seq<PatientRow>) {
    link.None? || (link.value >= 0 && HasPatient(ps, link.value))
  }

  /** The column value of an accepted link. */
  function StoredLink(link: Option<int>): Option<Id> {
    if link.Some? && link.value >= 0 then Some(link.value) else None
  }

  /** The patient row save_user inserts: age 65, "Not Diagnosed", stage "Early",
      and the optional field as emergency contact, "N/A" when empty. */
  function NewPatient(id: Id, username: string, password: string, fullName: string, extra: string): PatientRow {
    PatientRow(id, username, password, fullName, 65, "Not Diagnosed", "Early", if extra == [] then "N/A" else extra)
  }

  /** The caregiver row save_user inserts: the optional field as phone with a fixed
      fallback number, relationship "Relative". */
  function NewCaregiver(id: Id, username: string, password: string, fullName: string, extra: string, link: Option<Id>): CaregiverRow {
    CaregiverRow(id, username, password, fullName, if extra == [] then "+91-9000000000" else extra, "Relative", link)
  }

  /** The doctor row save_user inserts: the optional field as specialization,
      "General" when empty, with a placeholder licence and hospital. */
  function NewDoctor(id: Id, username: string, password: string, fullName: string, extra: string): DoctorRow {
    DoctorRow(id, username, password, fullName, if extra == [] then "General" else extra, "TEMP-LIC", "Local Hospital")
  }

  /** When the store refuses the new user: a username already in the role's table
      (UNIQUE), or a caregiver link to no patient (FOREIGN KEY). */
  predicate Refused(role: Role, username: string, pidText: string,
                    ps: seq<PatientRow>, cs: seq<CaregiverRow>, ds: seq<DoctorRow>) {
    match role
    case Patient => PatientNameTaken(ps, username)
    case Caregiver =>
      RequestedLink(pidText, ps).Some?
      && (!LinkAccepted(RequestedLink(pidText, ps).value, ps) || CaregiverNameTaken(cs, username))
    case Doctor => DoctorNameTaken(ds, username)
  }

  /** What login reports. */
  datatype LoginOutcome = MissingCredentials | InvalidCredentials | Welcome(who: Identity)

  /** What the entry and reminder forms report. */
  datatype SaveOutcome = Saved(id: Id) | MissingFields | StoreRejected

  /** What the add-user form reports. */
  datatype UserOutcome = UserAdded(id: Id) | MissingUserFields | PatientIdNotNumeric | UserRejected

  class MemoryCompanionApp {
    // the session
    var currentUser: Option<Id>
    var currentRole: Option<Role>
    var running: bool

    // the tables of the store
    var patients: seq<PatientRow>
    var caregivers: seq<CaregiverRow>
    var doctors: seq<DoctorRow>
    var entries: seq<Entry>
    var reminders: seq<Reminder>
    var auditLog: seq<AuditRecord>

    // the AUTO_INCREMENT counters: the id the next inserted row receives
    var nextPatientId: Id
    var nextCaregiverId: Id
    var nextDoctorId: Id
    var nextEntryId: Id
    var nextReminderId: Id

    ghost predicate Valid()
      reads this`currentRole, this`currentUser, this`patients, this`caregivers, this`doctors, this`entries, this`reminders
      reads this`nextPatientId, this`nextCaregiverId, this`nextDoctorId, this`nextEntryId, this`nextReminderId
    {
      SessionOk() && UsersOk() && EntriesOk() && RemindersOk()
    }

    ghost predicate SessionOk()
      reads this`currentRole, this`currentUser, this`patients, this`caregivers, this`doctors
    {
      SessionHeld(currentRole, currentUser, patients, caregivers, doctors)
    }

    ghost predicate UsersOk()
      reads this`patients, this`caregivers, this`doctors, this`nextPatientId, this`nextCaregiverId, this`nextDoctorId
    {
      PatientTable(patients, nextPatientId)
      && CaregiverTable(caregivers, nextCaregiverId, patients)
      && DoctorTable(doctors, nextDoctorId)
    }

    ghost predicate EntriesOk()
      reads this`entries, this`nextEntryId, this`patients
    {
      EntryTable(entries, nextEntryId, patients)
    }

    ghost predicate RemindersOk()
      reads this`reminders, this`nextReminderId, this`patients
    {
      ReminderTable(reminders, nextReminderId, patients)
    }

    /** A fresh application over an empty store: nobody logged in, the poll running. */
    constructor ()
      ensures Valid()
      ensures currentUser.None? && currentRole.None? && running
      ensures patients == [] && caregivers == [] && doctors == []
      ensures entries == [] && reminders == [] && auditLog == []
    {
      currentUser, currentRole, running := None, None, true;
      patients, caregivers, doctors := [], [], [];
      entries, reminders, auditLog := [], [], [];
      nextPatientId, nextCaregiverId, nextDoctorId, nextEntryId, nextReminderId := 1, 1, 1, 1, 1;
    }

    /** The audit rows log_action appends in the current session: one row, or none
        when no one is logged in (the NOT NULL user columns reject the insert and
        the error is swallowed). */
    function AuditFor(action: string, details: string): (r: seq<AuditRecord>)
      reads this`currentRole, this`currentUser
      ensures |r| <= 1
      ensures r != [] <==> currentRole.Some? && currentUser.Some?
      ensures r != [] ==> r[0].userType == currentRole.value && r[0].userId == currentUser.value
                          && r[0].action == action && r[0].details == details
    {
      if currentRole.Some? && currentUser.Some? then [AuditRecord(currentRole.value, currentUser.value, action, details)]
      else []
    }

    /** log_action. */
    method LogAction(action: string, details: string)
      requires Valid()
      modifies this`auditLog
      ensures Valid()
      ensures auditLog == old(auditLog) + AuditFor(action, details)
    {
      auditLog := auditLog + AuditFor(action, details);
    }

    /** login: empty fields are refused before any lookup; otherwise the pools are
        tried in the order patients, caregivers, doctors, and the first match becomes
        the session and is audited. */
    method Login(username: string, password: string) returns (outcome: LoginOutcome)
      requires Valid()
      modifies this`currentUser, this`currentRole, this`auditLog
      ensures Valid()
      ensures username == [] || password == [] ==>
        outcome == MissingCredentials
        && currentRole == old(currentRole) && currentUser == old(currentUser) && auditLog == old(auditLog)
      ensures username != [] && password != [] ==>
        match Authenticate(patients, caregivers, doctors, username, password)
        case None =>
          outcome == InvalidCredentials
          && currentRole == old(currentRole) && currentUser == old(currentUser) && auditLog == old(auditLog)
        case Some(who) =>
          outcome == Welcome(who)
          && currentRole == Some(who.role) && currentUser == Some(who.id)
          && auditLog == old(auditLog) + [AuditRecord(who.role, who.id, "LOGIN", RoleLabel(who.role) + " " + username + " logged in")]
    {
      if username == [] || password == [] {
        return MissingCredentials;
      }
      match FindPatient(patients, username, password)
      case Some(p) =>
        outcome := SignIn(Identity(Patient, p.0, p.1), username, password);
      case None =>
        match FindCaregiver(caregivers, username, password)
        case Some(c) =>
          outcome := SignIn(Identity(Caregiver, c.0, c.1), username, password);
        case None =>
          match FindDoctor(doctors, username, password)
          case Some(d) =>
            outcome := SignIn(Identity(Doctor, d.0, d.1), username, password);
          case None =>
            outcome := InvalidCredentials;
    }

    /** The successful branch of login: the identity becomes the session and the
        LOGIN row is audited under it. */
    method SignIn(who: Identity, username: string, password: string) returns (outcome: LoginOutcome)
      requires Valid()
      requires PoolHolds(patients, caregivers, doctors, username, password, who)
      modifies this`currentUser, this`currentRole, this`auditLog
      ensures Valid()
      ensures outcome == Welcome(who)
      ensures currentRole == Some(who.role) && currentUser == Some(who.id)
      ensures auditLog == old(auditLog) + [AuditRecord(who.role, who.id, "LOGIN", RoleLabel(who.role) + " " + username + " logged in")]
    {
      currentUser := Some(who.id);
      currentRole := Some(who.role);
      LogAction("LOGIN", RoleLabel(who.role) + " " + username + " logged in");
      outcome := Welcome(who);
    }

    /** save_entry: title, date and time are required; the entry is written for the
        session's patient as WriteScope resolves it, and audited. Without a session
        the NOT NULL user columns reject the insert. */
    method SaveEntry(entryType: EntryType, title: string, description: string, date: Option<Date>, time: Option<TimeOfDay>)
      returns (outcome: SaveOutcome)
      requires Valid()
      modifies this`entries, this`nextEntryId, this`auditLog
      ensures Valid()
      ensures WriteScope(currentRole, currentUser, caregivers, patients).Resolved?
      ensures outcome == MissingFields <==> title == [] || date.None? || time.None?
      ensures outcome == StoreRejected <==> title != [] && date.Some? && time.Some? && currentRole.None?
      ensures !outcome.Saved? ==> entries == old(entries) && auditLog == old(auditLog)
      ensures outcome.Saved? ==>
        (forall e :: e in old(entries) ==> e.id != outcome.id)
        && entries == old(entries) + [Entry(outcome.id, currentRole.value, currentUser.value,
                                            WriteScope(currentRole, currentUser, caregivers, patients).patientId,
                                            entryType, title, description, date.value, time.value)]
        && auditLog == old(auditLog) + [AuditRecord(currentRole.value, currentUser.value, "ADD_ENTRY",
                                                    "Added " + EntryTypeName(entryType) + " entry: " + title)]
    {
      WriteScopeInStore(currentRole, currentUser, patients, caregivers, doctors, nextCaregiverId);
      if title == [] || date.None? || time.None? {
        return MissingFields;
      }
      var scope := WriteScope(currentRole, currentUser, caregivers, patients);
      if currentRole.None? {
        return StoreRejected;
      }
      var e := Entry(nextEntryId, currentRole.value, currentUser.value, scope.patientId,
                     entryType, title, description, date.value, time.value);
      outcome := Saved(nextEntryId);
      InsertEntry(e);
    }

    /** The INSERT of a new entry row under the next auto-increment id, and its
        audit record. */
    method InsertEntry(e: Entry)
      requires Valid() && currentRole.Some?
      requires e.id == nextEntryId && (e.patientId.Some? ==> HasPatient(patients, e.patientId.value))
      modifies this`entries, this`nextEntryId, this`auditLog
      ensures Valid()
      ensures forall f :: f in old(entries) ==> f.id != e.id
      ensures entries == old(entries) + [e] && nextEntryId == old(nextEntryId) + 1
      ensures auditLog == old(auditLog) + [AuditRecord(currentRole.value, currentUser.value, "ADD_ENTRY",
                                                       "Added " + EntryTypeName(e.entryType) + " entry: " + e.title)]
    {
      EntryTableAppend(entries, nextEntryId, patients, e);
      entries := entries + [e];
      nextEntryId := nextEntryId + 1;
      LogAction("ADD_ENTRY", "Added " + EntryTypeName(e.entryType) + " entry: " + e.title);
    }

    /** save_reminder: the same checks and patient resolution as save_entry; a new
        reminder is active and not completed. */
    method SaveReminder(reminderType: ReminderType, title: string, description: string, date: Option<Date>, time: Option<TimeOfDay>)
      returns (outcome: SaveOutcome)
      requires Valid()
      modifies this`reminders, this`nextReminderId, this`auditLog
      ensures Valid()
      ensures WriteScope(currentRole, currentUser, caregivers, patients).Resolved?
      ensures outcome == MissingFields <==> title == [] || date.None? || time.None?
      ensures outcome == StoreRejected <==> title != [] && date.Some? && time.Some? && currentRole.None?
      ensures !outcome.Saved? ==> reminders == old(reminders) && auditLog == old(auditLog)
      ensures outcome.Saved? ==>
        (forall i :: 0 <= i < |old(reminders)| ==> old(reminders)[i].id != outcome.id)
        && reminders == old(reminders) + [Reminder(outcome.id, currentRole.value, currentUser.value,
                                                   WriteScope(currentRole, currentUser, caregivers, patients).patientId,
                                                   title, description, date.value, time.value, reminderType, true, false)]
        && auditLog == old(auditLog) + [AuditRecord(currentRole.value, currentUser.value, "ADD_REMINDER",
                                                    "Added " + ReminderTypeName(reminderType) + " reminder: " + title)]
    {
      WriteScopeInStore(currentRole, currentUser, patients, caregivers, doctors, nextCaregiverId);
      if title == [] || date.None? || time.None? {
        return MissingFields;
      }
      var scope := WriteScope(currentRole, currentUser, caregivers, patients);
      if currentRole.None? {
        return StoreRejected;
      }
      var x := Reminder(nextReminderId, currentRole.value, currentUser.value, scope.patientId,
                        title, description, date.value, time.value, reminderType, true, false);
      outcome := Saved(nextReminderId);
      InsertReminder(x);
    }

    /** The INSERT of a new reminder row under the next auto-increment id, and its
        audit record. */
    method InsertReminder(x: Reminder)
      requires Valid() && currentRole.Some?
      requires x.id == nextReminderId && (x.patientId.Some? ==> HasPatient(patients, x.patientId.value))
      modifies this`reminders, this`nextReminderId, this`auditLog
      ensures Valid()
      ensures forall i :: 0 <= i < |old(reminders)| ==> old(reminders)[i].id != x.id
      ensures reminders == old(reminders) + [x] && nextReminderId == old(nextReminderId) + 1
      ensures auditLog == old(auditLog) + [AuditRecord(currentRole.value, currentUser.value, "ADD_REMINDER",
                                                       "Added " + ReminderTypeName(x.reminderType) + " reminder: " + x.title)]
    {
      ReminderTableAppend(reminders, nextReminderId, patients, x);
      reminders := reminders + [x];
      nextReminderId := nextReminderId + 1;
      LogAction("ADD_REMINDER", "Added " + ReminderTypeName(x.reminderType) + " reminder: " + x.title);
    }

    /** complete_reminder: `is_completed` is set on the row with that id, whoever
        owns it; the flags only advance. */
    method CompleteReminder(id: Id)
      requires Valid()
      modifies this`reminders, this`auditLog
      ensures Valid()
      ensures reminders == MarkCompleted(old(reminders), id)
      ensures FlagsAdvance(old(reminders), reminders)
      ensures auditLog == old(auditLog) + AuditFor("COMPLETE_REMINDER", "Completed reminder ID: " + NatToString(id))
    {
      UpdatesAdvanceFlags(reminders, id, []);
      ReminderTableSameKeys(reminders, MarkCompleted(reminders, id), nextReminderId, patients);
      reminders := MarkCompleted(reminders, id);
      LogAction("COMPLETE_REMINDER", "Completed reminder ID: " + NatToString(id));
    }

    /** delete_reminder: after confirmation, the soft delete clears `is_active`. */
    method DeleteReminder(id: Id, confirmed: bool)
      requires Valid()
      modifies this`reminders, this`auditLog
      ensures Valid()
      ensures FlagsAdvance(old(reminders), reminders)
      ensures !confirmed ==> reminders == old(reminders) && auditLog == old(auditLog)
      ensures confirmed ==>
        reminders == Retire(old(reminders), id)
        && auditLog == old(auditLog) + AuditFor("DELETE_REMINDER", "Deleted reminder ID: " + NatToString(id))
    {
      UpdatesAdvanceFlags(reminders, id, []);
      if confirmed {
        ReminderTableSameKeys(reminders, Retire(reminders, id), nextReminderId, patients);
        reminders := Retire(reminders, id);
        LogAction("DELETE_REMINDER", "Deleted reminder ID: " + NatToString(id));
      }
    }

    /** delete_entry: after confirmation, the row with that id is removed and every
        other row kept. */
    method DeleteEntry(id: Id, confirmed: bool)
      requires Valid()
      modifies this`entries, this`auditLog
      ensures Valid()
      ensures !confirmed ==> entries == old(entries) && auditLog == old(auditLog)
      ensures confirmed ==>
        entries == WithoutEntry(old(entries), id)
        && (forall e :: multiset(entries)[e] == if e.id == id then 0 else multiset(old(entries))[e])
        && auditLog == old(auditLog) + AuditFor("DELETE_ENTRY", "Deleted entry ID: " + NatToString(id))
    {
      if confirmed {
        EntryTableDelete(entries, nextEntryId, patients, id);
        entries := WithoutEntry(entries, id);
        LogAction("DELETE_ENTRY", "Deleted entry ID: " + NatToString(id));
      }
    }

    /** save_user of the add-user form: username, password and full name are
        required; a patient gets the default age, diagnosis and stage, a caregiver the
        typed patient id (which must be numeric) or the first patient, a doctor the
        default licence and hospital; the optional field falls back to a default.
        The new user is audited under the session that created it. */
    method SaveUser(role: Role, username: string, password: string, fullName: string, extra: string, pidText: string)
      returns (outcome: UserOutcome)
      requires Valid()
      modifies this`patients, this`caregivers, this`doctors, this`nextPatientId, this`nextCaregiverId, this`nextDoctorId, this`auditLog
      ensures Valid()
      ensures outcome == MissingUserFields <==> username == [] || password == [] || fullName == []
      ensures outcome == PatientIdNotNumeric <==>
        username != [] && password != [] && fullName != [] && role == Caregiver && RequestedLink(pidText, old(patients)).None?
      ensures outcome == UserRejected <==>
        username != [] && password != [] && fullName != [] && Refused(role, username, pidText, old(patients), old(caregivers), old(doctors))
      ensures !outcome.UserAdded? ==>
        patients == old(patients) && caregivers == old(caregivers) && doctors == old(doctors) && auditLog == old(auditLog)
      ensures outcome.UserAdded? ==>
        auditLog == old(auditLog) + AuditFor("ADD_USER", "Added new " + RoleName(role) + ": " + username)
      ensures outcome.UserAdded? && role == Patient ==>
        !HasPatient(old(patients), outcome.id)
        && patients == old(patients) + [NewPatient(outcome.id, username, password, fullName, extra)]
        && caregivers == old(caregivers) && doctors == old(doctors)
      ensures outcome.UserAdded? && role == Caregiver ==>
        !HasCaregiver(old(caregivers), outcome.id)
        && caregivers == old(caregivers) + [NewCaregiver(outcome.id, username, password, fullName, extra,
                                                         StoredLink(RequestedLink(pidText, old(patients)).value))]
        && patients == old(patients) && doctors == old(doctors)
      ensures outcome.UserAdded? && role == Doctor ==>
        !HasDoctor(old(doctors), outcome.id)
        && doctors == old(doctors) + [NewDoctor(outcome.id, username, password, fullName, extra)]
        && patients == old(patients) && caregivers == old(caregivers)
    {
      if username == [] || password == [] || fullName == [] {
        return MissingUserFields;
      }
      match role {
        case Patient => outcome := AddPatient(username, password, fullName, extra);
        case Caregiver => outcome := AddCaregiver(username, password, fullName, extra, pidText);
        case Doctor => outcome := AddDoctor(username, password, fullName, extra);
      }
    }

    /** The patient branch of save_user: `INSERT INTO patients` with the next id,
        refused when the username is taken. */
    method AddPatient(username: string, password: string, fullName: string, extra: string) returns (outcome: UserOutcome)
      requires Valid()
      modifies this`patients, this`nextPatientId, this`auditLog
      ensures Valid()
      ensures outcome.UserAdded? || outcome == UserRejected
      ensures outcome == UserRejected <==> PatientNameTaken(old(patients), username)
      ensures outcome == UserRejected ==> patients == old(patients)
      ensures outcome.UserAdded? ==>
        !HasPatient(old(patients), outcome.id) && patients == old(patients) + [NewPatient(outcome.id, username, password, fullName, extra)]
      ensures !outcome.UserAdded? ==> auditLog == old(auditLog)
      ensures outcome.UserAdded? ==> auditLog == old(auditLog) + AuditFor("ADD_USER", "Added new " + RoleName(Patient) + ": " + username)
    {
      if PatientNameTaken(patients, username) {
        return UserRejected;
      }
      var row := NewPatient(nextPatientId, username, password, fullName, extra);
      PatientAdded(patients, nextPatientId, row, caregivers, nextCaregiverId, entries, nextEntryId,
                   reminders, nextReminderId, currentRole, currentUser, doctors);
      patients := patients + [row];
      outcome := UserAdded(nextPatientId);
      nextPatientId := nextPatientId + 1;
      LogAction("ADD_USER", "Added new " + RoleName(Patient) + ": " + username);
    }

    /** The caregiver branch of save_user: the link is the typed patient id or the
        first patient; text int() rejects ends the form, and the store refuses a
        taken username or a link to no patient. */
    method AddCaregiver(username: string, password: string, fullName: string, extra: string, pidText: string)
      returns (outcome: UserOutcome)
      requires Valid()
      modifies this`caregivers, this`nextCaregiverId, this`auditLog
      ensures Valid()
      ensures outcome.UserAdded? || outcome == UserRejected || outcome == PatientIdNotNumeric
      ensures outcome == PatientIdNotNumeric <==> RequestedLink(pidText, patients).None?
      ensures outcome == UserRejected <==> Refused(Caregiver, username, pidText, patients, old(caregivers), [])
      ensures !outcome.UserAdded? ==> caregivers == old(caregivers)
      ensures outcome.UserAdded? ==>
        !HasCaregiver(old(caregivers), outcome.id)
        && caregivers == old(caregivers) + [NewCaregiver(outcome.id, username, password, fullName, extra,
                                                         StoredLink(RequestedLink(pidText, patients).value))]
      ensures !outcome.UserAdded? ==> auditLog == old(auditLog)
      ensures outcome.UserAdded? ==> auditLog == old(auditLog) + AuditFor("ADD_USER", "Added new " + RoleName(Caregiver) + ": " + username)
    {
      var requested := RequestedLink(pidText, patients);
      if requested.None? {
        return PatientIdNotNumeric;
      }
      var link := requested.value;
      if !LinkAccepted(link, patients) || CaregiverNameTaken(caregivers, username) {
        return UserRejected;
      }
      outcome := UserAdded(nextCaregiverId);
      InsertCaregiver(NewCaregiver(nextCaregiverId, username, password, fullName, extra, StoredLink(link)));
    }

    /** The INSERT of a new caregiver row under the next auto-increment id, and its
        audit record. */
    method InsertCaregiver(row: CaregiverRow)
      requires Valid()
      requires row.id == nextCaregiverId && !CaregiverNameTaken(caregivers, row.username)
      requires row.patientId.Some? ==> HasPatient(patients, row.patientId.value)
      modifies this`caregivers, this`nextCaregiverId, this`auditLog
      ensures Valid()
      ensures !HasCaregiver(old(caregivers), row.id)
      ensures caregivers == old(caregivers) + [row] && nextCaregiverId == old(nextCaregiverId) + 1
      ensures auditLog == old(auditLog) + AuditFor("ADD_USER", "Added new " + RoleName(Caregiver) + ": " + row.username)
    {
      CaregiverAdded(caregivers, nextCaregiverId, patients, row, currentRole, currentUser, doctors);
      caregivers := caregivers + [row];
      nextCaregiverId := nextCaregiverId + 1;
      LogAction("ADD_USER", "Added new " + RoleName(Caregiver) + ": " + row.username);
    }

    /** The doctor branch of save_user, refused when the username is taken. */
    method AddDoctor(username: string, password: string, fullName: string, extra: string) returns (outcome: UserOutcome)
      requires Valid()
      modifies this`doctors, this`nextDoctorId, this`auditLog
      ensures Valid()
      ensures outcome.UserAdded? || outcome == UserRejected
      ensures outcome == UserRejected <==> DoctorNameTaken(old(doctors), username)
      ensures outcome == UserRejected ==> doctors == old(doctors)
      ensures outcome.UserAdded? ==>
        !HasDoctor(old(doctors), outcome.id) && doctors == old(doctors) + [NewDoctor(outcome.id, username, password, fullName, extra)]
      ensures !outcome.UserAdded? ==> auditLog == old(auditLog)
      ensures outcome.UserAdded? ==> auditLog == old(auditLog) + AuditFor("ADD_USER", "Added new " + RoleName(Doctor) + ": " + username)
    {
      if DoctorNameTaken(doctors, username) {
        return UserRejected;
      }
      var row := NewDoctor(nextDoctorId, username, password, fullName, extra);
      DoctorAdded(doctors, nextDoctorId, row, currentRole, currentUser, patients, caregivers);
      doctors := doctors + [row];
      outcome := UserAdded(nextDoctorId);
      nextDoctorId := nextDoctorId + 1;
      LogAction("ADD_USER", "Added new " + RoleName(Doctor) + ": " + username);
    }

    /** logout: the session is cleared; nothing is audited. */
    method Logout()
      requires Valid()
      modifies this`currentUser, this`currentRole
      ensures Valid()
      ensures currentUser.None? && currentRole.None?
    {
      currentUser, currentRole := None, None;
    }

    // ------------------------------------------------------------------ the screens

    /** The patient the listing screens of this session narrow to. */
    function ListedPatient(): Option<Id>
      reads this`currentRole, this`currentUser, this`caregivers
    {
      ListingScope(currentRole, currentUser, caregivers)
    }

    /** load_entries for this session: with a resolved patient every one of that
        patient's entries passing the filter, otherwise (a doctor, an unlinked
        caregiver) the 50 newest of everyone's; newest first either way. */
    function LoadEntries(filter: TypeFilter): (r: seq<Entry>)
      reads this`currentRole, this`currentUser, this`caregivers, this`entries
      ensures Sorted(r, NewestFirst)
      ensures forall e :: e in r ==> e in entries && PassesFilter(e, filter)
      ensures forall e :: multiset(r)[e] <= multiset(entries)[e]
      ensures Truthy(ListedPatient()) ==>
        forall e :: multiset(r)[e] == if e.patientId == ListedPatient() && PassesFilter(e, filter) then multiset(entries)[e] else 0
      ensures currentRole == Some(Patient) && Truthy(currentUser) ==> forall e :: e in r ==> e.patientId == currentUser
      ensures currentRole == Some(Caregiver) && Truthy(ListedPatient()) ==>
        currentUser.Some? && forall e :: e in r ==> CaregiverLink(caregivers, currentUser.value) == Some(e.patientId)
      ensures currentRole == Some(Doctor) ==>
        |r| == if |OfType(entries, filter)| <= 50 then |OfType(entries, filter)| else 50
      ensures !Truthy(ListedPatient()) ==>
        |r| == (if |OfType(entries, filter)| <= 50 then |OfType(entries, filter)| else 50)
        && forall x, y :: x in r && PassesFilter(y, filter) && multiset(r)[y] < multiset(entries)[y] ==>
             Stamp(y.date, y.time) <= Stamp(x.date, x.time)
    {
      ListingConfinedToSession(currentRole, currentUser, caregivers, entries, filter);
      EntryListing(ListedPatient(), entries, filter)
    }

    /** show_reminders for this session: the active reminders of the resolved
        patient, completed ones included, or without one the session's own active
        reminders; soonest first. */
    function ShowReminders(): (r: seq<Reminder>)
      reads this`currentRole, this`currentUser, this`caregivers, this`reminders
      ensures Sorted(r, SoonestFirst)
      ensures forall x :: x in r ==> x.isActive
      ensures Truthy(ListedPatient()) ==>
        forall x :: multiset(r)[x] == if x.patientId == ListedPatient() && x.isActive then multiset(reminders)[x] else 0
      ensures !Truthy(ListedPatient()) ==>
        forall x :: multiset(r)[x] == if x.isActive && currentRole == Some(x.userType) && currentUser == Some(x.userId)
                                      then multiset(reminders)[x] else 0
      ensures currentRole.None? ==> r == []
    {
      ReminderListing(ListedPatient(), currentRole, currentUser, reminders)
    }

    /** show_welcome's counters: today's entries and the pending reminders of the
        resolved patient, the same rows the entry and reminder screens list; a
        doctor or an unlinked caregiver gets no counters. */
    function WelcomeScreen(today: Date): (r: Option<(nat, nat)>)
      reads this`currentRole, this`currentUser, this`caregivers, this`entries, this`reminders
      ensures r.Some? <==> Truthy(ListedPatient())
      ensures currentRole == Some(Doctor) ==> r.None?
      ensures r.Some? ==> r.value.0 == |OnDate(LoadEntries(AllTypes), today)|
      ensures r.Some? ==> r.value.1 == |Pending(ShowReminders())|
    {
      var scope := ListedPatient();
      if Truthy(scope) then
        WelcomeTodayMatchesListing(scope.value, entries, reminders, today);
        WelcomeCountMatchesListing(scope.value, currentRole, currentUser, entries, reminders, today);
        WelcomeStats(scope, entries, reminders, today)
      else WelcomeStats(scope, entries, reminders, today)
    }

    /** show_patient_info: a caregiver sees the patient it is linked to, anyone else
        every patient. */
    function ShowPatientInfo(): (r: seq<PatientCard>)
      reads this`currentRole, this`currentUser, this`caregivers, this`patients
      ensures currentRole == Some(Caregiver) ==>
        currentUser.Some? || r == []
      ensures currentRole == Some(Caregiver) && currentUser.Some? ==>
        forall c :: c in r ==> CaregiverLink(caregivers, currentUser.value) == Some(Some(c.id))
      ensures currentRole == Some(Caregiver) && currentUser.Some? ==>
        forall i :: 0 <= i < |patients| && CaregiverLink(caregivers, currentUser.value) == Some(Some(patients[i].id)) ==>
          Card(patients[i]) in r
      ensures currentRole == Some(Caregiver) && currentUser.Some? && CaregiverLink(caregivers, currentUser.value).Some?
              && CaregiverLink(caregivers, currentUser.value).value.Some? ==>
        |r| == |LinkedRows(patients, CaregiverLink(caregivers, currentUser.value).value.value)|
      ensures currentRole != Some(Caregiver) ==> |r| == |patients| && forall i :: 0 <= i < |r| ==> r[i] == Card(patients[i])
    {
      PatientCards(currentRole, currentUser, caregivers, patients)
    }

    /** generate_summary for this session: a caregiver's linked patient, a
        patient's own entries, and for a doctor the first patient of the store. */
    function GenerateSummary(period: Period, today: Date): (v: SummaryView)
      reads this`currentRole, this`currentUser, this`caregivers, this`patients, this`entries
      ensures currentRole == Some(Patient) ==>
        (v == NoPatientData <==> !Truthy(currentUser))
        && (v.Report? ==> v.total == CountInWindow(entries, currentUser.value, period, today))
      ensures currentRole == Some(Doctor) ==>
        (v == NoPatientData <==> patients == [] || patients[0].id == 0)
        && (v.Report? ==> v.total == CountInWindow(entries, patients[0].id, period, today))
      ensures currentRole == Some(Caregiver) && v != NoPatientData ==>
        currentUser.Some? && CaregiverLink(caregivers, currentUser.value).Some?
      ensures currentRole == Some(Caregiver) && v.Report? ==>
        currentUser.Some? && exists p :: CaregiverLink(caregivers, currentUser.value) == Some(Some(p))
                                         && v.total == CountInWindow(entries, p, period, today)
      ensures v.Report? ==> ReportedTotal(v.text) == Some(v.total)
      ensures currentRole == Some(Caregiver) ==> (v == NoPatientData <==> !Truthy(ListedPatient()))
      ensures var s := SummaryScope(currentRole, currentUser, caregivers, patients);
        (v == NoPatientData <==> !Truthy(s))
        && (v == NoEntries <==> Truthy(s) && CountInWindow(entries, s.value, period, today) == 0)
        && (v.Report? ==> v.total == CountInWindow(entries, s.value, period, today)
                          && v.groups == Groups(entries, s.value, period, today, EntryTypes))
      ensures v.Report? ==> v.text == AiSummary(v.groups, v.total, period)
    {
      var scope := SummaryScope(currentRole, currentUser, caregivers, patients);
      assert currentRole == Some(Caregiver) && scope.Some? ==>
        currentUser.Some? && CaregiverLink(caregivers, currentUser.value) == Some(scope);
      SummaryOf(scope, entries, period, today)
    }

    /** One pass of the reminder checker at date today and wall-clock time now:
        fetch today's active, incomplete reminders and collect a notification for
        each one set for the current hour and minute and owned by the session. */
    method Poll(today: Date, now: TimeOfDay) returns (notes: seq<Notification>)
      ensures notes == if running then Notifications(reminders, today, now, currentRole, currentUser) else []
    {
      notes := [];
      if !running {
        return;
      }
      var fetched := DueRows(reminders, today);
      var i := 0;
      while i < |fetched|
        invariant 0 <= i <= |fetched|
        invariant notes == Notifications(fetched[..i], today, now, currentRole, currentUser)
      {
        var x := fetched[i];
        NotificationsStep(reminders, today, now, currentRole, currentUser, i);
        if Head(FormatTime(x.time), 5) == Head(FormatTime(now), 5) {
          if currentRole == Some(x.userType) && currentUser == Some(x.userId) {
            notes := notes + [NoteOf(x)];
          }
        }
        i := i + 1;
      }
      assert fetched[..i] == fetched;
      NotificationsOfDueRows(reminders, today, now, currentRole, currentUser);
    }

    /** on_closing: once the user confirms, the checker loop stops. */
    method OnClosing(confirmed: bool)
      modifies this`running
      ensures running == (old(running) && !confirmed)
    {
      if confirmed {
        running := false;
      }
    }
  }
}

=== FILE: Queries.dfy ===
/** The SQL statements of the core as functions over the in-memory tables: WHERE
    clauses become filters, ORDER BY becomes a sort on a key, LIMIT a prefix, and
    the two UPDATEs of reminders become row-wise maps. */
module Queries {
  import opened Records
  import opened Text
  import opened Scope

  // ------------------------------------------------------ generic relational steps

  /** WHERE p: the rows satisfying p, each as often as it occurs. */
  function Filter<T(!new)>(s: seq<T>, p: T -> bool): (r: seq<T>)
    ensures |r| <= |s|
    ensures forall x :: multiset(r)[x] == if p(x) then multiset(s)[x] else 0
    ensures forall x :: x in r ==> x in s && p(x)
  {
    if s == [] then []
    else
      var rest := Filter(s[1..], p);
      assert s == [s[0]] + s[1..];
      assert multiset(s) == multiset{s[0]} + multiset(s[1..]);
      if p(s[0]) then [s[0]] + rest else rest
  }

  /** Rows in ascending order of key. */
  ghost predicate Sorted<T>(s: seq<T>, key: T -> int) {
    forall i, j :: 0 <= i < j < |s| ==> key(s[i]) <= key(s[j])
  }

  /** A row no greater than every row of a sorted sequence can go in front of it. */
  lemma PrependSorted<T>(lo: T, s: seq<T>, key: T -> int)
    requires Sorted(s, key)
    requires forall y :: y in s ==> key(lo) <= key(y)
    ensures Sorted([lo] + s, key)
  {
    forall i, j | 0 <= i < j < |[lo] + s| ensures key(([lo] + s)[i]) <= key(([lo] + s)[j]) {
      assert ([lo] + s)[j] == s[j - 1];
      assert s[j - 1] in s;
      if i > 0 {
        assert ([lo] + s)[i] == s[i - 1];
      }
    }
  }

  /** The head of a sorted sequence bounds everything inserted after it. */
  lemma HeadBoundsInsertion<T>(x: T, s: seq<T>, rest: seq<T>, key: T -> int)
    requires s != [] && Sorted(s, key) && key(s[0]) < key(x)
    requires multiset(rest) == multiset(s[1..]) + multiset{x}
    ensures forall y :: y in rest ==> key(s[0]) <= key(y)
  {
    forall y | y in rest ensures key(s[0]) <= key(y) {
      assert y in multiset(rest);
      if y != x {
        assert y in multiset(s[1..]);
        var j :| 0 <= j < |s[1..]| && s[1..][j] == y;
        assert s[j + 1] == y;
      }
    }
  }

  function Insert<T>(x: T, s: seq<T>, key: T -> int): (r: seq<T>)
    requires Sorted(s, key)
    ensures Sorted(r, key)
    ensures multiset(r) == multiset(s) + multiset{x}
  {
    if s == [] then [x]
    else if key(x) <= key(s[0]) then
      PrependSorted(x, s, key);
      [x] + s
    else
      var rest := Insert(x, s[1..], key);
      HeadBoundsInsertion(x, s, rest, key);
      PrependSorted(s[0], rest, key);
      assert s == [s[0]] + s[1..];
      [s[0]] + rest
  }

  /** ORDER BY key: an ascending rearrangement of the rows. */
  function SortBy<T>(s: seq<T>, key: T -> int): (r: seq<T>)
    ensures Sorted(r, key)
    ensures multiset(r) == multiset(s)
    ensures |r| == |s|
  {
    if s == [] then []
    else
      assert s == [s[0]] + s[1..];
      Insert(s[0], SortBy(s[1..], key), key)
  }

  /** LIMIT keeps the order and only drops rows. */
  lemma HeadKeeps<T>(s: seq<T>, key: T -> int, n: nat)
    ensures Sorted(s, key) ==> Sorted(Head(s, n), key)
    ensures forall x :: multiset(Head(s, n))[x] <= multiset(s)[x]
    ensures forall x :: x in Head(s, n) ==> x in s
  {
    var t := Head(s, n);
    assert s == t + s[|t|..];
    assert multiset(s) == multiset(t) + multiset(s[|t|..]);
  }

  /** What LIMIT keeps from an ordered result is its best part: every row left out
      sorts at or after every row kept. */
  lemma HeadOfSortedIsTopK<T>(s: seq<T>, key: T -> int, n: nat)
    requires Sorted(s, key)
    ensures var t := Head(s, n);
      forall x, y :: x in t && multiset(t)[y] < multiset(s)[y] ==> key(x) <= key(y)
  {
    var t := Head(s, n);
    var rest := s[|t|..];
    assert s == t + rest;
    forall x, y | x in t && multiset(t)[y] < multiset(s)[y]
      ensures key(x) <= key(y)
    {
      assert multiset(s) == multiset(t) + multiset(rest);
      assert y in rest;
      var j :| 0 <= j < |rest| && rest[j] == y;
      var i :| 0 <= i < |t| && t[i] == x;
      assert s[i] == x && s[|t| + j] == y;
    }
  }

  /** A loop over rows that emits f(x) for each row x passing keep, in order. */
  function Collect<T, U>(s: seq<T>, keep: T -> bool, f: T -> U): (r: seq<U>)
    ensures |r| <= |s|
  {
    if s == [] then [] else (if keep(s[0]) then [f(s[0])] else []) + Collect(s[1..], keep, f)
  }

  lemma {:induction false} CollectAppend<T, U>(a: seq<T>, b: seq<T>, keep: T -> bool, f: T -> U)
    ensures Collect(a + b, keep, f) == Collect(a, keep, f) + Collect(b, keep, f)
  {
    if a != [] {
      var head := if keep(a[0]) then [f(a[0])] else [];
      var rest, tail := Collect(a[1..], keep, f), Collect(b, keep, f);
      assert (a + b)[0] == a[0];
      assert (a + b)[1..] == a[1..] + b;
      CollectAppend(a[1..], b, keep, f);
      assert Collect(a + b, keep, f) == head + (rest + tail);
      assert head + (rest + tail) == (head + rest) + tail;
    } else {
      assert a + b == b;
    }
  }

  /** What the loop emits is exactly the images of the rows that pass. */
  lemma {:induction false} CollectMembership<T, U>(s: seq<T>, keep: T -> bool, f: T -> U)
    ensures forall y :: y in Collect(s, keep, f) ==> exists i :: 0 <= i < |s| && keep(s[i]) && f(s[i]) == y
    ensures forall i :: 0 <= i < |s| && keep(s[i]) ==> f(s[i]) in Collect(s, keep, f)
  {
    if s != [] {
      var tail := Collect(s[1..], keep, f);
      var head := if keep(s[0]) then [f(s[0])] else [];
      assert Collect(s, keep, f) == head + tail;
      CollectMembership(s[1..], keep, f);
      forall y | y in Collect(s, keep, f)
        ensures exists i :: 0 <= i < |s| && keep(s[i]) && f(s[i]) == y
      {
        if y in head {
          assert keep(s[0]) && f(s[0]) == y;
        } else {
          assert y in tail;
          var j :| 0 <= j < |s[1..]| && keep(s[1..][j]) && f(s[1..][j]) == y;
          assert s[j + 1] == s[1..][j];
        }
      }
      forall i | 0 <= i < |s| && keep(s[i])
        ensures f(s[i]) in Collect(s, keep, f)
      {
        if i > 0 {
          assert s[1..][i - 1] == s[i];
          assert f(s[1..][i - 1]) in tail;
        }
      }
    }
  }

  /** Filtering first by a condition that every kept row satisfies changes nothing. */
  lemma {:induction false} CollectAfterFilter<T(!new), U>(s: seq<T>, p: T -> bool, keep: T -> bool, f: T -> U)
    requires forall x :: keep(x) ==> p(x)
    ensures Collect(Filter(s, p), keep, f) == Collect(s, keep, f)
  {
    if s != [] {
      CollectAfterFilter(s[1..], p, keep, f);
      var rest := Filter(s[1..], p);
      if p(s[0]) {
        assert Filter(s, p) == [s[0]] + rest;
        CollectAppend([s[0]], rest, keep, f);
      } else {
        assert Filter(s, p) == rest;
      }
    }
  }

  // ------------------------------------------------------------ date and time order

  function Seconds(t: TimeOfDay): (n: nat)
    ensures n < 86400
  {
    t.hour * 3600 + t.minute * 60 + t.second
  }

  /** One number for a (DATE, TIME) pair. */
  function Stamp(d: Date, t: TimeOfDay): int {
    d * 86400 + Seconds(t)
  }

  /** Ordering stamps is ordering by date and then by time of day. */
  lemma StampOrder(d1: Date, t1: TimeOfDay, d2: Date, t2: TimeOfDay)
    ensures Stamp(d1, t1) <= Stamp(d2, t2) <==> d1 < d2 || (d1 == d2 && Seconds(t1) <= Seconds(t2))
  {
    if d1 < d2 {
      assert d1 * 86400 + 86400 <= d2 * 86400;
    } else if d1 > d2 {
      assert d2 * 86400 + 86400 <= d1 * 86400;
    }
  }

  /** `ORDER BY entry_date DESC, entry_time DESC` as an ascending key. */
  function NewestFirst(e: Entry): int {
    -Stamp(e.date, e.time)
  }

  /** `ORDER BY reminder_date, reminder_time`. */
  function SoonestFirst(r: Reminder): int {
    Stamp(r.date, r.time)
  }

  // ----------------------------------------------------------------- load_entries

  predicate PassesFilter(e: Entry, filter: TypeFilter) {
    filter.AllTypes? || e.entryType == filter.entryType
  }

  /** The WHERE clause of load_entries: the patient (when one is resolved) and the
      entry type (unless the filter is 'all'). */
  predicate EntrySelected(scope: Option<Id>, filter: TypeFilter, e: Entry) {
    (!Truthy(scope) || e.patientId == scope) && PassesFilter(e, filter)
  }

  /** load_entries with a resolved patient: all of that patient's entries that pass
      the type filter, newest first, with no limit. */
  function PatientListing(pid: Id, entries: seq<Entry>, filter: TypeFilter): (r: seq<Entry>)
    ensures Sorted(r, NewestFirst)
    ensures forall e :: multiset(r)[e] == if e.patientId == Some(pid) && PassesFilter(e, filter) then multiset(entries)[e] else 0
    ensures forall e :: e in r ==> e.patientId == Some(pid) && PassesFilter(e, filter)
  {
    var r := SortBy(Filter(entries, (e: Entry) => e.patientId == Some(pid) && PassesFilter(e, filter)), NewestFirst);
    assert forall e :: e in r ==> e in multiset(r);
    r
  }

  /** `WHERE entry_type = %s`, or no condition for 'all'. */
  function OfType(entries: seq<Entry>, filter: TypeFilter): seq<Entry> {
    Filter(entries, (e: Entry) => PassesFilter(e, filter))
  }

  /** load_entries without a resolved patient: the 50 newest entries of all
      patients that pass the type filter. */
  function RecentListing(entries: seq<Entry>, filter: TypeFilter): (r: seq<Entry>)
    ensures Sorted(r, NewestFirst)
    ensures forall e :: e in r ==> PassesFilter(e, filter)
    ensures forall e :: multiset(r)[e] <= multiset(entries)[e]
    ensures |r| == if |OfType(entries, filter)| <= 50 then |OfType(entries, filter)| else 50
  {
    var all := OfType(entries, filter);
    var sorted := SortBy(all, NewestFirst);
    HeadKeeps(sorted, NewestFirst, 50);
    var r := Head(sorted, 50);
    forall e | e in r ensures PassesFilter(e, filter) {
      assert e in sorted;
      assert multiset(sorted)[e] > 0;
      assert multiset(all)[e] > 0;
    }
    r
  }

  /** The limit of 50 drops the oldest entries: every entry that passes the filter
      and is left out is no newer than every entry shown. */
  lemma RecentListingKeepsNewest(entries: seq<Entry>, filter: TypeFilter)
    ensures var r := RecentListing(entries, filter);
      forall x, y :: x in r && PassesFilter(y, filter) && multiset(r)[y] < multiset(entries)[y] ==>
        Stamp(y.date, y.time) <= Stamp(x.date, x.time)
  {
    var all := OfType(entries, filter);
    var sorted := SortBy(all, NewestFirst);
    HeadOfSortedIsTopK(sorted, NewestFirst, 50);
    var r := RecentListing(entries, filter);
    assert r == Head(sorted, 50);
    forall x, y | x in r && PassesFilter(y, filter) && multiset(r)[y] < multiset(entries)[y]
      ensures Stamp(y.date, y.time) <= Stamp(x.date, x.time)
    {
      assert multiset(sorted)[y] == multiset(all)[y] == multiset(entries)[y];
      assert NewestFirst(x) <= NewestFirst(y);
    }
  }

  /** load_entries: a truthy patient id selects PatientListing, anything else (a
      doctor, an unlinked caregiver) the 50 newest entries of everyone. */
  function EntryListing(scope: Option<Id>, entries: seq<Entry>, filter: TypeFilter): (r: seq<Entry>)
    ensures Sorted(r, NewestFirst)
    ensures forall e :: e in r ==> EntrySelected(scope, filter, e)
    ensures forall e :: multiset(r)[e] <= multiset(entries)[e]
    ensures Truthy(scope) ==> forall e :: multiset(r)[e] == if EntrySelected(scope, filter, e) then multiset(entries)[e] else 0
    ensures !Truthy(scope) ==> |r| == if |OfType(entries, filter)| <= 50 then |OfType(entries, filter)| else 50
    ensures !Truthy(scope) ==>
      forall x, y :: x in r && PassesFilter(y, filter) && multiset(r)[y] < multiset(entries)[y] ==>
        Stamp(y.date, y.time) <= Stamp(x.date, x.time)
  {
    if Truthy(scope) then PatientListing(scope.value, entries, filter)
    else
      RecentListingKeepsNewest(entries, filter);
      RecentListing(entries, filter)
  }

  /** What load_entries shows each role: a patient only its own entries, a
      caregiver only entries of the patient its row links to, a doctor the capped
      listing of everyone's; and never a row the table does not hold. */
  lemma ListingConfinedToSession(role: Option<Role>, user: Option<Id>, caregivers: seq<CaregiverRow>,
                                 entries: seq<Entry>, filter: TypeFilter)
    ensures var scope := ListingScope(role, user, caregivers);
      var r := EntryListing(scope, entries, filter);
      && (forall e :: e in r ==> e in entries)
      && (role == Some(Patient) && Truthy(user) ==> forall e :: e in r ==> e.patientId == user)
      && (role == Some(Caregiver) && Truthy(scope) ==>
            user.Some? && forall e :: e in r ==> CaregiverLink(caregivers, user.value) == Some(e.patientId))
      && (role == Some(Doctor) ==> |r| == if |OfType(entries, filter)| <= 50 then |OfType(entries, filter)| else 50)
  {
    var scope := ListingScope(role, user, caregivers);
    var r := EntryListing(scope, entries, filter);
    forall e | e in r ensures e in entries {
      assert multiset(r)[e] > 0;
    }
    if role == Some(Caregiver) && Truthy(scope) {
      assert CaregiverLink(caregivers, user.value) == Some(scope);
    }
  }

  /** An entry the caller just saved for patient p with the newest date and time of
      all p's entries comes first in p's listing. */
  lemma NewestEntryListedFirst(p: Id, entries: seq<Entry>, e: Entry)
    requires p != 0 && e in entries && e.patientId == Some(p)
    requires forall x :: x in entries && x.patientId == Some(p) ==> Stamp(x.date, x.time) <= Stamp(e.date, e.time)
    ensures var r := PatientListing(p, entries, AllTypes);
      |r| > 0 && Stamp(r[0].date, r[0].time) == Stamp(e.date, e.time)
  {
    var r := PatientListing(p, entries, AllTypes);
    assert multiset(r)[e] == multiset(entries)[e] > 0;
    assert e in r;
    var k :| 0 <= k < |r| && r[k] == e;
    assert r[0] in r;
    if k > 0 {
      assert NewestFirst(r[0]) <= NewestFirst(r[k]);
    }
  }

  // --------------------------------------------------------------- show_reminders

  /** The WHERE clause of show_reminders: active reminders of the resolved patient,
      completed ones included; without a patient, the session's own active
      reminders (a NULL session matches nothing). */
  predicate ReminderShown(scope: Option<Id>, role: Option<Role>, user: Option<Id>, x: Reminder) {
    x.isActive &&
    if Truthy(scope) then x.patientId == scope
    else role == Some(x.userType) && user == Some(x.userId)
  }

  function ReminderListing(scope: Option<Id>, role: Option<Role>, user: Option<Id>, reminders: seq<Reminder>): (r: seq<Reminder>)
    ensures Sorted(r, SoonestFirst)
    ensures forall x :: multiset(r)[x] == if ReminderShown(scope, role, user, x) then multiset(reminders)[x] else 0
    ensures forall x :: x in r ==> x.isActive
    ensures !Truthy(scope) && role.None? ==> r == []
  {
    var r := SortBy(Filter(reminders, x => ReminderShown(scope, role, user, x)), SoonestFirst);
    assert forall x :: x in r ==> x in multiset(r);
    r
  }

  // -------------------------------------------------------------------- show_welcome

  /** The two counters of the welcome screen for a resolved patient: today's entries
      and the active, not yet completed reminders; no counters without a patient. */
  function WelcomeStats(scope: Option<Id>, entries: seq<Entry>, reminders: seq<Reminder>, today: Date): (r: Option<(nat, nat)>)
    ensures r.Some? <==> Truthy(scope)
  {
    if Truthy(scope) then
      Some((|Filter(entries, (e: Entry) => e.patientId == scope && e.date == today)|,
            |Filter(reminders, (x: Reminder) => x.patientId == scope && x.isActive && !x.isCompleted)|))
    else None
  }

  /** The reminders of a listing that are not completed yet. */
  function Pending(rs: seq<Reminder>): seq<Reminder> {
    Filter(rs, (x: Reminder) => !x.isCompleted)
  }

  /** The entries of a listing dated today. */
  function OnDate(es: seq<Entry>, today: Date): seq<Entry> {
    Filter(es, (e: Entry) => e.date == today)
  }

  /** The welcome screen's reminder counter agrees with the reminder screen of the
      same session: it counts exactly the listed reminders that are not completed. */
  lemma WelcomeCountMatchesListing(p: Id, role: Option<Role>, user: Option<Id>,
                                   entries: seq<Entry>, reminders: seq<Reminder>, today: Date)
    requires p != 0
    ensures WelcomeStats(Some(p), entries, reminders, today).value.1 == |Pending(ReminderListing(Some(p), role, user, reminders))|
  {
    var listed := ReminderListing(Some(p), role, user, reminders);
    var a := Pending(listed);
    var b := Filter(reminders, (x: Reminder) => x.patientId == Some(p) && x.isActive && !x.isCompleted);
    forall x ensures multiset(a)[x] == multiset(b)[x] {
      assert ReminderShown(Some(p), role, user, x) == (x.isActive && x.patientId == Some(p));
    }
    assert multiset(a) == multiset(b);
    assert |a| == |multiset(a)| == |multiset(b)| == |b|;
  }

  /** The welcome screen's entry counter agrees with the unfiltered entry listing
      of the same patient: it counts exactly the listed entries dated today. */
  lemma WelcomeTodayMatchesListing(p: Id, entries: seq<Entry>, reminders: seq<Reminder>, today: Date)
    requires p != 0
    ensures WelcomeStats(Some(p), entries, reminders, today).value.0 == |OnDate(PatientListing(p, entries, AllTypes), today)|
  {
    var listed := PatientListing(p, entries, AllTypes);
    var a := OnDate(listed, today);
    var b := Filter(entries, (e: Entry) => e.patientId == Some(p) && e.date == today);
    forall e ensures multiset(a)[e] == multiset(b)[e] {
      assert PassesFilter(e, AllTypes);
      assert multiset(listed)[e] == if e.patientId == Some(p) then multiset(entries)[e] else 0;
    }
    assert multiset(a) == multiset(b);
    assert |a| == |multiset(a)| == |multiset(b)| == |b|;
  }

  /** `DELETE FROM entries WHERE id = %s`. */
  function WithoutEntry(entries: seq<Entry>, id: Id): (r: seq<Entry>)
    ensures forall e :: multiset(r)[e] == if e.id == id then 0 else multiset(entries)[e]
    ensures forall e :: e in r <==> e in entries && e.id != id
  {
    var r := Filter(entries, (e: Entry) => e.id != id);
    assert forall e :: e in r <==> e in multiset(r);
    r
  }

  // ----------------------------------------------------------------- show_patient_info

  function Card(p: PatientRow): PatientCard {
    PatientCard(p.id, p.fullName, p.age, p.diagnosis, p.stage, p.emergencyContact)
  }

  function Cards(ps: seq<PatientRow>): (r: seq<PatientCard>)
    ensures |r| == |ps| && forall i :: 0 <= i < |ps| ==> r[i] == Card(ps[i])
  {
    if ps == [] then [] else [Card(ps[0])] + Cards(ps[1..])
  }

  /** The cards of one patient's rows: each card is that patient's, and every row
      of that patient has its card. */
  /** `WHERE p.id = %s`: the patient rows with that id. */
  function LinkedRows(patients: seq<PatientRow>, pid: Id): seq<PatientRow> {
    Filter(patients, (p: PatientRow) => p.id == pid)
  }

  lemma CardsOfOnePatient(patients: seq<PatientRow>, pid: Id)
    ensures var r := Cards(Filter(patients, (p: PatientRow) => p.id == pid));
      && (forall c :: c in r ==> c.id == pid)
      && (forall i :: 0 <= i < |patients| && patients[i].id == pid ==> Card(patients[i]) in r)
      && |r| == |LinkedRows(patients, pid)|
  {
    var linked := Filter(patients, (p: PatientRow) => p.id == pid);
    var r := Cards(linked);
    forall c | c in r ensures c.id == pid {
      var i :| 0 <= i < |r| && r[i] == c;
      assert linked[i] in linked;
    }
    forall i | 0 <= i < |patients| && patients[i].id == pid ensures Card(patients[i]) in r {
      assert patients[i] in multiset(patients);
      assert patients[i] in multiset(linked);
      var j :| 0 <= j < |linked| && linked[j] == patients[i];
      assert r[j] == Card(patients[i]);
    }
  }

  /** show_patient_info: a caregiver sees the patient its caregivers row links to
      (the JOIN), anyone else every patient; the credentials are never selected. */
  function PatientCards(role: Option<Role>, user: Option<Id>, caregivers: seq<CaregiverRow>, patients: seq<PatientRow>)
    : (r: seq<PatientCard>)
    ensures role == Some(Caregiver) ==>
      forall c :: c in r ==> user.Some? && CaregiverLink(caregivers, user.value) == Some(Some(c.id))
    ensures role == Some(Caregiver) && (user.None? || CaregiverLink(caregivers, user.value) == Some(None)) ==> r == []
    ensures role == Some(Caregiver) && user.Some? && CaregiverLink(caregivers, user.value).Some? ==>
      forall i :: 0 <= i < |patients| && CaregiverLink(caregivers, user.value) == Some(Some(patients[i].id)) ==> Card(patients[i]) in r
    ensures role == Some(Caregiver) && user.Some? && CaregiverLink(caregivers, user.value).Some?
            && CaregiverLink(caregivers, user.value).value.Some? ==>
      |r| == |LinkedRows(patients, CaregiverLink(caregivers, user.value).value.value)|
    ensures role != Some(Caregiver) ==> |r| == |patients| && forall i :: 0 <= i < |patients| ==> r[i] == Card(patients[i])
  {
    if role == Some(Caregiver) then
      if user.None? then []
      else
        match CaregiverLink(caregivers, user.value)
        case Some(Some(pid)) =>
          CardsOfOnePatient(patients, pid);
          Cards(Filter(patients, (p: PatientRow) => p.id == pid))
        case _ => []
    else Cards(patients)
  }

  // ------------------------------------------------------------ reminder flag updates

  /** `UPDATE reminders SET is_completed = TRUE WHERE id = %s`. */
  function MarkCompleted(rs: seq<Reminder>, id: Id): (r: seq<Reminder>)
    ensures |r| == |rs|
    ensures forall i :: 0 <= i < |rs| ==> r[i] == if rs[i].id == id then rs[i].(isCompleted := true) else rs[i]
  {
    if rs == [] then []
    else [if rs[0].id == id then rs[0].(isCompleted := true) else rs[0]] + MarkCompleted(rs[1..], id)
  }

  /** `UPDATE reminders SET is_active = FALSE WHERE id = %s`: the soft delete. */
  function Retire(rs: seq<Reminder>, id: Id): (r: seq<Reminder>)
    ensures |r| == |rs|
    ensures forall i :: 0 <= i < |rs| ==> r[i] == if rs[i].id == id then rs[i].(isActive := false) else rs[i]
  {
    if rs == [] then []
    else [if rs[0].id == id then rs[0].(isActive := false) else rs[0]] + Retire(rs[1..], id)
  }

  /** Completing the same reminder twice is the same as completing it once. */
  lemma MarkCompletedIdempotent(rs: seq<Reminder>, id: Id)
    ensures MarkCompleted(MarkCompleted(rs, id), id) == MarkCompleted(rs, id)
  {
    var once := MarkCompleted(rs, id);
    var twice := MarkCompleted(once, id);
    assert forall i :: 0 <= i < |once| ==> twice[i] == once[i];
  }

  /** Retiring the same reminder twice is the same as retiring it once. */
  lemma RetireIdempotent(rs: seq<Reminder>, id: Id)
    ensures Retire(Retire(rs, id), id) == Retire(rs, id)
  {
    var once := Retire(rs, id);
    var twice := Retire(once, id);
    assert forall i :: 0 <= i < |once| ==> twice[i] == once[i];
  }

  /** Completing one reminder and retiring another (or the same one) commute. */
  lemma FlagUpdatesCommute(rs: seq<Reminder>, retired: Id, completed: Id)
    ensures MarkCompleted(Retire(rs, retired), completed) == Retire(MarkCompleted(rs, completed), retired)
  {
    var a := MarkCompleted(Retire(rs, retired), completed);
    var b := Retire(MarkCompleted(rs, completed), retired);
    assert forall i :: 0 <= i < |rs| ==> a[i] == b[i];
  }

  /** The one-way life cycle of reminders: every row keeps its place and id, no
      inactive reminder becomes active again and no completed one incomplete. */
  ghost predicate FlagsAdvance(before: seq<Reminder>, after: seq<Reminder>) {
    |before| <= |after| &&
    forall i :: 0 <= i < |before| ==>
      after[i].id == before[i].id &&
      (after[i].isActive ==> before[i].isActive) &&
      (before[i].isCompleted ==> after[i].isCompleted)
  }

  lemma FlagsAdvanceTransitive(a: seq<Reminder>, b: seq<Reminder>, c: seq<Reminder>)
    requires FlagsAdvance(a, b) && FlagsAdvance(b, c)
    ensures FlagsAdvance(a, c)
  {
  }

  /** Both updates, and any appended rows, only ever advance the flags. */
  lemma UpdatesAdvanceFlags(rs: seq<Reminder>, id: Id, added: seq<Reminder>)
    ensures FlagsAdvance(rs, MarkCompleted(rs, id))
    ensures FlagsAdvance(rs, Retire(rs, id))
    ensures FlagsAdvance(rs, rs + added)
  {
  }

  // ------------------------------------------------------------------ reminder poll

  /** The checker's query: today's reminders that are active and not completed. */
  predicate DueToday(today: Date, x: Reminder) {
    x.date == today && x.isActive && !x.isCompleted
  }

  function DueOn(today: Date): Reminder -> bool {
    (x: Reminder) => DueToday(today, x)
  }

  /** The rows the checker fetches. */
  function DueRows(rs: seq<Reminder>, today: Date): (r: seq<Reminder>)
    ensures forall x :: multiset(r)[x] == if DueToday(today, x) then multiset(rs)[x] else 0
  {
    Filter(rs, DueOn(today))
  }

  /** Everything that must hold for the poll to notify about a reminder. */
  predicate Fires(today: Date, now: TimeOfDay, role: Option<Role>, user: Option<Id>, x: Reminder) {
    DueToday(today, x) && SameMinuteText(x.time, now) && role == Some(x.userType) && user == Some(x.userId)
  }

  function FiresAt(today: Date, now: TimeOfDay, role: Option<Role>, user: Option<Id>): Reminder -> bool {
    (x: Reminder) => Fires(today, now, role, user, x)
  }

  function NoteOf(x: Reminder): Notification {
    Notification(x.title, x.description)
  }

  /** The notifications one poll hands out, in the order of the fetched rows. */
  function Notifications(rs: seq<Reminder>, today: Date, now: TimeOfDay, role: Option<Role>, user: Option<Id>): (r: seq<Notification>)
    ensures |r| <= |rs|
    ensures forall n :: n in r ==> exists i :: 0 <= i < |rs| && Fires(today, now, role, user, rs[i]) && NoteOf(rs[i]) == n
    ensures forall i :: 0 <= i < |rs| && Fires(today, now, role, user, rs[i]) ==> NoteOf(rs[i]) in r
  {
    CollectMembership(rs, FiresAt(today, now, role, user), NoteOf);
    Collect(rs, FiresAt(today, now, role, user), NoteOf)
  }

  lemma NotificationsAppend(a: seq<Reminder>, b: seq<Reminder>, today: Date, now: TimeOfDay, role: Option<Role>, user: Option<Id>)
    ensures Notifications(a + b, today, now, role, user) == Notifications(a, today, now, role, user) + Notifications(b, today, now, role, user)
  {
    CollectAppend(a, b, FiresAt(today, now, role, user), NoteOf);
  }

  /** One fetched row yields its notification when it is set for the current
      minute and owned by the session, and nothing otherwise. */
  lemma NotificationsOfDueRow(x: Reminder, today: Date, now: TimeOfDay, role: Option<Role>, user: Option<Id>)
    requires DueToday(today, x)
    ensures Notifications([x], today, now, role, user)
         == if SameMinuteText(x.time, now) && role == Some(x.userType) && user == Some(x.userId) then [NoteOf(x)] else []
  {
    assert [x][1..] == [];
  }

  /** The checker's loop, one fetched row further: the notifications grow by that
      row's own. */
  lemma NotificationsStep(rs: seq<Reminder>, today: Date, now: TimeOfDay, role: Option<Role>, user: Option<Id>, i: nat)
    requires i < |DueRows(rs, today)|
    ensures var fetched := DueRows(rs, today); var x := fetched[i];
      Notifications(fetched[..i + 1], today, now, role, user)
      == Notifications(fetched[..i], today, now, role, user)
         + if SameMinuteText(x.time, now) && role == Some(x.userType) && user == Some(x.userId) then [NoteOf(x)] else []
  {
    var fetched := DueRows(rs, today);
    var x := fetched[i];
    assert x in fetched;
    NotificationsOfDueRow(x, today, now, role, user);
    NotificationsAppend(fetched[..i], [x], today, now, role, user);
    assert fetched[..i + 1] == fetched[..i] + [x];
  }

  /** A notification is handed out exactly for the reminders that are due today,
      active, not completed, set for the current hour and minute (seconds ignored)
      and owned by the session. */
  lemma NotificationsExact(rs: seq<Reminder>, today: Date, now: TimeOfDay, role: Option<Role>, user: Option<Id>)
    ensures forall n :: n in Notifications(rs, today, now, role, user) <==>
      exists i :: 0 <= i < |rs| && NoteOf(rs[i]) == n
        && rs[i].date == today && rs[i].isActive && !rs[i].isCompleted
        && rs[i].time.hour == now.hour && rs[i].time.minute == now.minute
        && role == Some(rs[i].userType) && user == Some(rs[i].userId)
  {
    CollectMembership(rs, FiresAt(today, now, role, user), NoteOf);
    forall i | 0 <= i < |rs| {
      SameMinuteTextIff(rs[i].time, now);
    }
  }

  /** With no session bound, or a session that owns none of the rows, nothing is
      delivered. */
  lemma {:induction false} NoOwnerNoNotifications(rs: seq<Reminder>, today: Date, now: TimeOfDay, role: Option<Role>, user: Option<Id>)
    requires role.None? || user.None? || forall i :: 0 <= i < |rs| ==> role != Some(rs[i].userType) || user != Some(rs[i].userId)
    ensures Notifications(rs, today, now, role, user) == []
  {
    if rs != [] {
      assert forall i :: 1 <= i < |rs| ==> rs[i] == rs[1..][i - 1];
      NoOwnerNoNotifications(rs[1..], today, now, role, user);
    }
  }

  /** The poll's query does not change what the loop delivers: filtering to today's
      active, incomplete rows first gives the same notifications as testing every
      row. */
  lemma NotificationsOfDueRows(rs: seq<Reminder>, today: Date, now: TimeOfDay, role: Option<Role>, user: Option<Id>)
    ensures Notifications(DueRows(rs, today), today, now, role, user) == Notifications(rs, today, now, role, user)
  {
    CollectAfterFilter(rs, DueOn(today), FiresAt(today, now, role, user), NoteOf);
  }

  /** A reminder set for 14:30:00 fires for its owner at 14:30:45, not at 14:31:01,
      and not for any other session. */
  lemma FireWindowExample(x: Reminder, today: Date, other: Role)
    requires x.date == today && x.isActive && !x.isCompleted && x.time == Clock(14, 30, 0)
    requires other != x.userType
    ensures Notifications([x], today, Clock(14, 30, 45), Some(x.userType), Some(x.userId)) == [NoteOf(x)]
    ensures Notifications([x], today, Clock(14, 31, 1), Some(x.userType), Some(x.userId)) == []
    ensures Notifications([x], today, Clock(14, 30, 45), Some(other), Some(x.userId)) == []
  {
    SameMinuteTextIff(x.time, Clock(14, 30, 45));
    SameMinuteTextIff(x.time, Clock(14, 31, 1));
  }
}

=== FILE: Records.dfy ===
/** The rows of the Memory Companion store and the values the core passes around.
    Each table of the MySQL schema becomes a datatype; the creation timestamps the
    store fills in on its own are not part of the model. */
module Records {

  datatype Option<+T> = None | Some(value: T)

  /** Row identifiers: AUTO_INCREMENT keys, so never negative. */
  type Id = nat

  /** A calendar date as a day number; only equality and order matter to the core. */
  type Date = nat

  /** A TIME value as hour, minute and second. */
  datatype Clock = Clock(hour: nat, minute: nat, second: nat)

  /** A time of day below 24:00, as the wall clock gives it. The TIME columns also
      hold longer and negative durations; those are not represented. */
  type TimeOfDay = c: Clock | c.hour < 24 && c.minute < 60 && c.second < 60 witness Clock(0, 0, 0)

  /** The ENUM('patient', 'caregiver', 'doctor') of the user_type columns: which
      identity pool an identity lives in. */
  datatype Role = Patient | Caregiver | Doctor

  /** The ENUM of entries.entry_type. */
  datatype EntryType = Meal | Medication | Appointment | Social | Note | Activity | Observation

  /** The ENUM of reminders.reminder_type. */
  datatype ReminderType = MedicationReminder | AppointmentReminder | EventReminder | OtherReminder

  /** The type filter of the "View All Entries" screen: 'all' or one entry type. */
  datatype TypeFilter = AllTypes | OnlyType(entryType: EntryType)

  /** The period selector of the summary screen. */
  datatype Period = Daily | Weekly | Monthly

  datatype PatientRow = PatientRow(
    id: Id, username: string, password: string, fullName: string,
    age: int, diagnosis: string, stage: string, emergencyContact: string)

  /** A caregiver identity and its nullable link to the one patient it looks after. */
  datatype CaregiverRow = CaregiverRow(
    id: Id, username: string, password: string, fullName: string,
    phone: string, relationship: string, patientId: Option<Id>)

  datatype DoctorRow = DoctorRow(
    id: Id, username: string, password: string, fullName: string,
    specialization: string, licenseNumber: string, hospital: string)

  /** A diary entry: who wrote it (userType, userId) and which patient it concerns. */
  datatype Entry = Entry(
    id: Id, userType: Role, userId: Id, patientId: Option<Id>, entryType: EntryType,
    title: string, description: string, date: Date, time: TimeOfDay)

  /** A reminder: its owner (userType, userId) receives the notification; patientId
      is the patient it concerns. */
  datatype Reminder = Reminder(
    id: Id, userType: Role, userId: Id, patientId: Option<Id>, title: string,
    description: string, date: Date, time: TimeOfDay, reminderType: ReminderType,
    isActive: bool, isCompleted: bool)

  /** A row of audit_logs; both user columns are NOT NULL. */
  datatype AuditRecord = AuditRecord(userType: Role, userId: Id, action: string, details: string)

  /** What the reminder poll hands to the presentation layer: the popup's title and text. */
  datatype Notification = Notification(title: string, description: string)

  /** The columns show_patient_info selects: everything but the credentials. */
  datatype PatientCard = PatientCard(
    id: Id, fullName: string, age: int, diagnosis: string, stage: string, emergencyContact: string)
}

=== FILE: Scope.dfy ===
/** Identity and scope resolution: which pool a (username, password) pair belongs
    to, and which patient a session's queries narrow to. The application resolves
    the patient in three different ways depending on the screen, and the model keeps
    all three (MEMORY-COMPANION.py, see README). */
module Scope {
  import opened Records

  /** Python truthiness of a patient_id: None and 0 are both false. */
  predicate Truthy(pid: Option<Id>) {
    pid.Some? && pid.value != 0
  }

  // ---------------------------------------------------------------- identities

  /** `SELECT id, full_name FROM patients WHERE username = %s AND password = %s`
      followed by fetchone(): the first matching row, if any. */
  function FindPatient(pool: seq<PatientRow>, username: string, password: string): (r: Option<(Id, string)>)
    ensures r.None? <==> forall i :: 0 <= i < |pool| ==> !(pool[i].username == username && pool[i].password == password)
    ensures r.Some? ==> exists i :: 0 <= i < |pool| && pool[i].username == username && pool[i].password == password
                                    && r.value == (pool[i].id, pool[i].fullName)
  {
    if pool == [] then None
    else if pool[0].username == username && pool[0].password == password then Some((pool[0].id, pool[0].fullName))
    else
      var r := FindPatient(pool[1..], username, password);
      assert forall i :: 1 <= i < |pool| ==> pool[i] == pool[1..][i - 1];
      r
  }

  /** The same query on caregivers. */
  function FindCaregiver(pool: seq<CaregiverRow>, username: string, password: string): (r: Option<(Id, string)>)
    ensures r.None? <==> forall i :: 0 <= i < |pool| ==> !(pool[i].username == username && pool[i].password == password)
    ensures r.Some? ==> exists i :: 0 <= i < |pool| && pool[i].username == username && pool[i].password == password
                                    && r.value == (pool[i].id, pool[i].fullName)
  {
    if pool == [] then None
    else if pool[0].username == username && pool[0].password == password then Some((pool[0].id, pool[0].fullName))
    else
      var r := FindCaregiver(pool[1..], username, password);
      assert forall i :: 1 <= i < |pool| ==> pool[i] == pool[1..][i - 1];
      r
  }

  /** The same query on doctors. */
  function FindDoctor(pool: seq<DoctorRow>, username: string, password: string): (r: Option<(Id, string)>)
    ensures r.None? <==> forall i :: 0 <= i < |pool| ==> !(pool[i].username == username && pool[i].password == password)
    ensures r.Some? ==> exists i :: 0 <= i < |pool| && pool[i].username == username && pool[i].password == password
                                    && r.value == (pool[i].id, pool[i].fullName)
  {
    if pool == [] then None
    else if pool[0].username == username && pool[0].password == password then Some((pool[0].id, pool[0].fullName))
    else
      var r := FindDoctor(pool[1..], username, password);
      assert forall i :: 1 <= i < |pool| ==> pool[i] == pool[1..][i - 1];
      r
  }

  /** A successful authentication: the pool, the identity's id and its full name. */
  datatype Identity = Identity(role: Role, id: Id, fullName: string)

  /** The lookups of login, in their fixed order: patients, then caregivers, then
      doctors; the first pool with a matching row wins. */
  function Authenticate(patients: seq<PatientRow>, caregivers: seq<CaregiverRow>, doctors: seq<DoctorRow>,
                        username: string, password: string): (r: Option<Identity>)
    ensures r.Some? && r.value.role == Patient <==> FindPatient(patients, username, password).Some?
    ensures r.Some? && r.value.role == Caregiver <==>
      FindPatient(patients, username, password).None? && FindCaregiver(caregivers, username, password).Some?
    ensures r.Some? && r.value.role == Doctor <==>
      FindPatient(patients, username, password).None? && FindCaregiver(caregivers, username, password).None?
      && FindDoctor(doctors, username, password).Some?
  {
    match FindPatient(patients, username, password)
    case Some(p) => Some(Identity(Patient, p.0, p.1))
    case None =>
      match FindCaregiver(caregivers, username, password)
      case Some(c) => Some(Identity(Caregiver, c.0, c.1))
      case None =>
        match FindDoctor(doctors, username, password)
        case Some(d) => Some(Identity(Doctor, d.0, d.1))
        case None => None
  }

  /** Whether some row of the role's pool carries this id, name and credentials. */
  predicate PoolHolds(patients: seq<PatientRow>, caregivers: seq<CaregiverRow>, doctors: seq<DoctorRow>,
                      username: string, password: string, who: Identity)
  {
    match who.role
    case Patient => exists i :: 0 <= i < |patients| && patients[i].username == username && patients[i].password == password
                                && patients[i].id == who.id && patients[i].fullName == who.fullName
    case Caregiver => exists i :: 0 <= i < |caregivers| && caregivers[i].username == username && caregivers[i].password == password
                                  && caregivers[i].id == who.id && caregivers[i].fullName == who.fullName
    case Doctor => exists i :: 0 <= i < |doctors| && doctors[i].username == username && doctors[i].password == password
                               && doctors[i].id == who.id && doctors[i].fullName == who.fullName
  }

  /** Authentication succeeds exactly when some pool holds the credentials, the
      identity it yields is a row of the pool it names, and a pool is only reached
      when every earlier pool has no match. */
  lemma AuthenticateSoundAndComplete(patients: seq<PatientRow>, caregivers: seq<CaregiverRow>, doctors: seq<DoctorRow>,
                                     username: string, password: string)
    ensures var r := Authenticate(patients, caregivers, doctors, username, password);
      && (r.Some? <==>
            ((exists i :: 0 <= i < |patients| && patients[i].username == username && patients[i].password == password)
          || (exists i :: 0 <= i < |caregivers| && caregivers[i].username == username && caregivers[i].password == password)
          || (exists i :: 0 <= i < |doctors| && doctors[i].username == username && doctors[i].password == password)))
      && (r.Some? ==> PoolHolds(patients, caregivers, doctors, username, password, r.value))
      && (r.Some? && r.value.role != Patient ==> FindPatient(patients, username, password).None?)
      && (r.Some? && r.value.role == Doctor ==> FindCaregiver(caregivers, username, password).None?)
  {
  }

  // ---------------------------------------------------------- patient scopes

  /** `SELECT patient_id FROM caregivers WHERE id = %s` followed by fetchone():
      None when there is no row, otherwise the row's (nullable) patient_id. */
  function CaregiverLink(caregivers: seq<CaregiverRow>, id: Id): (r: Option<Option<Id>>)
    ensures r.None? <==> forall i :: 0 <= i < |caregivers| ==> caregivers[i].id != id
    ensures r.Some? ==> exists i :: 0 <= i < |caregivers| && caregivers[i].id == id && caregivers[i].patientId == r.value
  {
    if caregivers == [] then None
    else if caregivers[0].id == id then Some(caregivers[0].patientId)
    else
      var r := CaregiverLink(caregivers[1..], id);
      assert forall i :: 1 <= i < |caregivers| ==> caregivers[i] == caregivers[1..][i - 1];
      r
  }

  /** The resolution of the listing screens (show_welcome, show_reminders,
      load_entries): a patient is its own scope, a caregiver its linked patient or
      None when it has no row or no link, and a doctor, like a missing session,
      None. */
  function ListingScope(role: Option<Role>, user: Option<Id>, caregivers: seq<CaregiverRow>): (r: Option<Id>)
    ensures role == Some(Patient) ==> r == user
    ensures role == Some(Caregiver) && r.Some? ==> user.Some? && CaregiverLink(caregivers, user.value) == Some(r)
    ensures role == Some(Caregiver) && user.Some? && CaregiverLink(caregivers, user.value).Some? ==>
      Some(r) == CaregiverLink(caregivers, user.value)
    ensures role != Some(Patient) && role != Some(Caregiver) ==> r.None?
  {
    match role
    case Some(Patient) => user
    case Some(Caregiver) =>
      (match user
       case None => None   // `WHERE id = NULL` matches no row
       case Some(u) =>
         match CaregiverLink(caregivers, u)
         case Some(link) => link
         case None => None)
    case _ => None
  }

  /** The first patient row, `SELECT id FROM patients LIMIT 1`. */
  function FirstPatient(patients: seq<PatientRow>): (r: Option<Id>)
    ensures r.None? <==> patients == []
    ensures r.Some? ==> exists i :: 0 <= i < |patients| && patients[i].id == r.value
  {
    if patients == [] then None else Some(patients[0].id)
  }

  /** Why a write path could not resolve its patient. */
  datatype ScopeFailure =
    /** `cursor.fetchone()[0]` on None: a caregiver session without a caregivers row
        raises TypeError, which save_entry and save_reminder do not catch. */
    CaregiverRowMissing

  datatype WriteScopeResult = Resolved(patientId: Option<Id>) | Failed(failure: ScopeFailure)

  /** The resolution of save_entry and save_reminder: a doctor (and anything that is
      neither patient nor caregiver) writes for the first patient in the store. */
  function WriteScope(role: Option<Role>, user: Option<Id>, caregivers: seq<CaregiverRow>, patients: seq<PatientRow>): (r: WriteScopeResult)
    ensures r.Failed? <==>
      role == Some(Caregiver) && (user.None? || forall i :: 0 <= i < |caregivers| ==> caregivers[i].id != user.value)
    ensures role == Some(Patient) ==> r == Resolved(user)
    ensures role == Some(Caregiver) && r.Resolved? ==>
      exists i :: 0 <= i < |caregivers| && caregivers[i].id == user.value && caregivers[i].patientId == r.patientId
    ensures role != Some(Patient) && role != Some(Caregiver) ==> r == Resolved(FirstPatient(patients))
  {
    match role
    case Some(Patient) => Resolved(user)
    case Some(Caregiver) =>
      (match user
       case None => Failed(CaregiverRowMissing)
       case Some(u) =>
         match CaregiverLink(caregivers, u)
         case Some(link) => Resolved(link)
         case None => Failed(CaregiverRowMissing))
    case _ => Resolved(FirstPatient(patients))
  }

  /** The resolution of generate_summary: like WriteScope for doctors, like
      ListingScope for caregivers without a row. */
  function SummaryScope(role: Option<Role>, user: Option<Id>, caregivers: seq<CaregiverRow>, patients: seq<PatientRow>): (r: Option<Id>)
    ensures role == Some(Patient) ==> r == user
    ensures role == Some(Caregiver) ==> r == ListingScope(role, user, caregivers)
    ensures role != Some(Patient) && role != Some(Caregiver) ==> r == FirstPatient(patients)
  {
    match role
    case Some(Patient) => user
    case Some(Caregiver) => ListingScope(role, user, caregivers)
    case _ => FirstPatient(patients)
  }

  /** A listing scope is never a patient the session was not linked to: it is the
      patient's own id, or the caregiver's linked patient; a doctor gets none. */
  lemma ListingScopeConfined(role: Option<Role>, user: Option<Id>, caregivers: seq<CaregiverRow>)
    ensures var s := ListingScope(role, user, caregivers);
      && (role == Some(Patient) ==> s == user)
      && (role == Some(Caregiver) && s.Some? ==>
            user.Some? && exists i :: 0 <= i < |caregivers| && caregivers[i].id == user.value && caregivers[i].patientId == s)
      && (role == Some(Caregiver) && user.Some? && (forall i :: 0 <= i < |caregivers| ==> caregivers[i].id != user.value) ==> s.None?)
      && (role == Some(Doctor) || role.None? ==> s.None?)
  {
  }

  /** The three resolutions agree on patients and caregivers that have a row, and
      disagree on doctors: with at least one patient in the store, a doctor's listing
      scope is empty while the writing and summary screens pick the first patient. */
  lemma ScopesAgreeExceptForDoctors(role: Option<Role>, user: Option<Id>, caregivers: seq<CaregiverRow>, patients: seq<PatientRow>)
    ensures role == Some(Patient) || (role == Some(Caregiver) && user.Some? && CaregiverLink(caregivers, user.value).Some?) ==>
      WriteScope(role, user, caregivers, patients) == Resolved(ListingScope(role, user, caregivers))
      && SummaryScope(role, user, caregivers, patients) == ListingScope(role, user, caregivers)
    ensures role == Some(Doctor) && patients != [] ==>
      ListingScope(role, user, caregivers).None?
      && WriteScope(role, user, caregivers, patients) == Resolved(Some(patients[0].id))
      && SummaryScope(role, user, caregivers, patients) == Some(patients[0].id)
    ensures role == Some(Caregiver) && (user.None? || CaregiverLink(caregivers, user.value).None?) ==>
      WriteScope(role, user, caregivers, patients).Failed? && SummaryScope(role, user, caregivers, patients).None?
  {
  }

  // --------------------------------------------------------------------- menu

  datatype MenuItem = AddEntry | Reminders | Summaries | ViewAllEntries | PatientInfo | AddNewUser | AuditLogs

  /** The dashboard's sidebar: four items for everyone, patient information for
      caregivers and doctors, user creation and the audit log for doctors. */
  function Menu(role: Role): (items: seq<MenuItem>)
    ensures |items| >= 4 && items[..4] == [AddEntry, Reminders, Summaries, ViewAllEntries]
    ensures PatientInfo in items <==> role != Patient
    ensures AddNewUser in items <==> role == Doctor
    ensures AuditLogs in items <==> role == Doctor
  {
    var base := [AddEntry, Reminders, Summaries, ViewAllEntries];
    assert PatientInfo !in base && AddNewUser !in base && AuditLogs !in base;
    match role
    case Patient => base
    case Caregiver => base + [PatientInfo]
    case Doctor => base + [PatientInfo, AddNewUser, AuditLogs]
  }
}

=== FILE: Summary.dfy ===
/** The summary screen: the per-type counts of a patient's entries in a daily,
    weekly or monthly window, and the canned "AI summary" text built from them. */
module Summary {
  import opened Records
  import opened Text
  import opened Scope

  function PeriodText(period: Period): string {
    match period
    case Daily => "today"
    case Weekly => "this week"
    case Monthly => "this month"
  }

  /** The date condition of generate_summary's queries: today, or the last 7 or 30
      days counted back from today (inclusive). */
  predicate InWindow(period: Period, today: Date, d: Date)
    ensures d == today ==> InWindow(period, today, d)
    ensures InWindow(period, today, d) ==> d >= today - 30
  {
    match period
    case Daily => d == today
    case Weekly => d >= today - 7
    case Monthly => d >= today - 30
  }

  /** The windows nest: today's entries are among the last 7 days', and those
      among the last 30 days'. */
  lemma WindowsNest(today: Date, d: Date)
    ensures InWindow(Daily, today, d) ==> InWindow(Weekly, today, d)
    ensures InWindow(Weekly, today, d) ==> InWindow(Monthly, today, d)
  {
  }

  /** `WHERE patient_id = %s AND entry_date ...`. */
  predicate Counted(pid: Id, period: Period, today: Date, e: Entry) {
    e.patientId == Some(pid) && InWindow(period, today, e.date)
  }

  function CountInWindow(es: seq<Entry>, pid: Id, period: Period, today: Date): nat {
    if es == [] then 0
    else (if Counted(pid, period, today, es[0]) then 1 else 0) + CountInWindow(es[1..], pid, period, today)
  }

  function CountOfType(es: seq<Entry>, pid: Id, period: Period, today: Date, t: EntryType): nat {
    if es == [] then 0
    else (if Counted(pid, period, today, es[0]) && es[0].entryType == t then 1 else 0)
         + CountOfType(es[1..], pid, period, today, t)
  }

  /** No type occurs twice in the list. */
  predicate Distinct(types: seq<EntryType>) {
    forall i, j :: 0 <= i < j < |types| ==> types[i] != types[j]
  }

  /** No type has two rows. */
  predicate DistinctKeys(rows: seq<(EntryType, nat)>) {
    forall i, j :: 0 <= i < j < |rows| ==> rows[i].0 != rows[j].0
  }

  /** Every entry type, in the order of the ENUM declaration. */
  const EntryTypes: seq<EntryType> := [Meal, Medication, Appointment, Social, Note, Activity, Observation]

  /** `GROUP BY entry_type`: one (type, count) row per listed type that occurs, in
      the order of the types listed. */
  function Groups(es: seq<Entry>, pid: Id, period: Period, today: Date, types: seq<EntryType>): (r: seq<(EntryType, nat)>)
    ensures forall i :: 0 <= i < |r| ==> r[i].1 > 0 && r[i].0 in types && r[i].1 == CountOfType(es, pid, period, today, r[i].0)
  {
    if types == [] then []
    else
      var c := CountOfType(es, pid, period, today, types[0]);
      (if c > 0 then [(types[0], c)] else []) + Groups(es, pid, period, today, types[1..])
  }

  /** Every listed type that occurs in the window has its row, with its count. */
  lemma {:induction false} GroupsComplete(es: seq<Entry>, pid: Id, period: Period, today: Date, types: seq<EntryType>)
    ensures forall t :: t in types && CountOfType(es, pid, period, today, t) > 0 ==>
      (t, CountOfType(es, pid, period, today, t)) in Groups(es, pid, period, today, types)
  {
    if types != [] {
      GroupsComplete(es, pid, period, today, types[1..]);
      forall t | t in types && t != types[0] ensures t in types[1..] {
        var k :| 0 <= k < |types| && types[k] == t;
        assert types[1..][k - 1] == t;
      }
    }
  }

  /** With a list that names each type once, each type has at most one row. */
  lemma {:induction false} GroupsDistinct(es: seq<Entry>, pid: Id, period: Period, today: Date, types: seq<EntryType>)
    requires Distinct(types)
    ensures DistinctKeys(Groups(es, pid, period, today, types))
  {
    if types != [] {
      var tail := types[1..];
      assert Distinct(tail) by {
        assert forall k :: 0 <= k < |tail| ==> tail[k] == types[k + 1];
      }
      assert types[0] !in tail by {
        forall k | 0 <= k < |tail| ensures tail[k] != types[0] {
          assert tail[k] == types[k + 1];
        }
      }
      GroupsDistinct(es, pid, period, today, tail);
      var c := CountOfType(es, pid, period, today, types[0]);
      var rest := Groups(es, pid, period, today, tail);
      var r := Groups(es, pid, period, today, types);
      if c > 0 {
        assert r == [(types[0], c)] + rest;
        forall i, j | 0 <= i < j < |r| ensures r[i].0 != r[j].0 {
          var b := rest[j - 1];
          assert r[j] == b && b.0 in tail;
          if i == 0 {
            assert r[0].0 == types[0];
          } else {
            assert r[i] == rest[i - 1];
            assert DistinctKeys(rest);
          }
        }
      } else {
        assert r == rest;
      }
    }
  }

  /** `sum(count for _, count in results)`. */
  function GroupTotal(groups: seq<(EntryType, nat)>): nat {
    if groups == [] then 0 else groups[0].1 + GroupTotal(groups[1..])
  }

  function SumOfTypeCounts(es: seq<Entry>, pid: Id, period: Period, today: Date, types: seq<EntryType>): nat {
    if types == [] then 0
    else CountOfType(es, pid, period, today, types[0]) + SumOfTypeCounts(es, pid, period, today, types[1..])
  }

  function Occurrences(types: seq<EntryType>, t: EntryType): nat {
    if types == [] then 0 else (if types[0] == t then 1 else 0) + Occurrences(types[1..], t)
  }

  lemma {:induction false} GroupTotalIsSum(es: seq<Entry>, pid: Id, period: Period, today: Date, types: seq<EntryType>)
    ensures GroupTotal(Groups(es, pid, period, today, types)) == SumOfTypeCounts(es, pid, period, today, types)
  {
    if types != [] {
      GroupTotalIsSum(es, pid, period, today, types[1..]);
      var c := CountOfType(es, pid, period, today, types[0]);
      var rest := Groups(es, pid, period, today, types[1..]);
      if c > 0 {
        assert ([(types[0], c)] + rest)[1..] == rest;
      } else {
        assert [] + rest == rest;
      }
    }
  }

  lemma {:induction false} SumOfTypeCountsStep(es: seq<Entry>, pid: Id, period: Period, today: Date, types: seq<EntryType>)
    requires es != []
    ensures SumOfTypeCounts(es, pid, period, today, types)
         == SumOfTypeCounts(es[1..], pid, period, today, types)
            + (if Counted(pid, period, today, es[0]) then Occurrences(types, es[0].entryType) else 0)
  {
    if types != [] {
      SumOfTypeCountsStep(es, pid, period, today, types[1..]);
    }
  }

  /** The type list names every entry type exactly once. */
  lemma EachTypeListedOnce(t: EntryType)
    ensures Occurrences(EntryTypes, t) == 1
  {
    assert EntryTypes[1..][1..][1..][1..][1..][1..][1..] == [];
  }

  lemma {:induction false} SumOfTypeCountsIsWindowCount(es: seq<Entry>, pid: Id, period: Period, today: Date)
    ensures SumOfTypeCounts(es, pid, period, today, EntryTypes) == CountInWindow(es, pid, period, today)
  {
    if es == [] {
      assert SumOfTypeCounts(es, pid, period, today, EntryTypes) == 0 by {
        ZeroCountsSumToZero(es, pid, period, today, EntryTypes);
      }
    } else {
      SumOfTypeCountsStep(es, pid, period, today, EntryTypes);
      EachTypeListedOnce(es[0].entryType);
      SumOfTypeCountsIsWindowCount(es[1..], pid, period, today);
    }
  }

  lemma {:induction false} ZeroCountsSumToZero(es: seq<Entry>, pid: Id, period: Period, today: Date, types: seq<EntryType>)
    requires es == []
    ensures SumOfTypeCounts(es, pid, period, today, types) == 0
  {
    if types != [] {
      ZeroCountsSumToZero(es, pid, period, today, types[1..]);
    }
  }

  /** The summary's total, the sum over the grouped rows, is the number of the
      patient's entries in the window: grouping loses and duplicates nothing. */
  lemma GroupedTotalCountsWindow(es: seq<Entry>, pid: Id, period: Period, today: Date)
    ensures GroupTotal(Groups(es, pid, period, today, EntryTypes)) == CountInWindow(es, pid, period, today)
  {
    GroupTotalIsSum(es, pid, period, today, EntryTypes);
    SumOfTypeCountsIsWindowCount(es, pid, period, today);
  }

  // ------------------------------------------------------------------- the text

  /** `{entry_type: count for entry_type, count in results}`: a later row for the
      same type overwrites an earlier one. */
  function ToDict(results: seq<(EntryType, nat)>): (d: map<EntryType, nat>)
    ensures forall t :: t in d <==> exists i :: 0 <= i < |results| && results[i].0 == t
    ensures forall i :: 0 <= i < |results| && (forall j :: i < j < |results| ==> results[j].0 != results[i].0) ==>
      results[i].0 in d && d[results[i].0] == results[i].1
  {
    if results == [] then map[]
    else
      var last := results[|results| - 1];
      var front := results[..|results| - 1];
      var d := ToDict(front)[last.0 := last.1];
      assert forall i :: 0 <= i < |results| - 1 ==> front[i] == results[i];
      d
  }

  const YouHad: string := "You had "

  /** What follows the number in the opening sentence; it starts with a space. */
  function AfterTotal(period: Period): (r: string)
    ensures r != [] && r[0] == ' '
  {
    " activities logged " + PeriodText(period) + ". "
  }

  function Opening(total: nat, period: Period): string {
    YouHad + NatToString(total) + AfterTotal(period)
  }

  const Closing: string := "Keep up the consistent logging!"

  /** The sentences that may stand between opening and closing. */
  datatype Sentence =
    | MedicationPraise(medications: nat)
    | SocialPraise(socials: nat)
    | RoutinePraise
    | ObservationPraise(observations: nat)

  /** The place of a sentence in the text. */
  function Rank(x: Sentence): nat {
    match x
    case MedicationPraise(_) => 0
    case SocialPraise(_) => 1
    case RoutinePraise => 2
    case ObservationPraise(_) => 3
  }

  function SentenceText(x: Sentence): (s: string)
    ensures |s| > 0
  {
    match x
    case MedicationPraise(n) => "Great job tracking " + NatToString(n) + " medication entries! "
    case SocialPraise(n) => "You engaged in " + NatToString(n) + " social activities, which is excellent for cognitive health. "
    case RoutinePraise => "Maintaining daily routines is important for memory care. "
    case ObservationPraise(n) => "Caregivers logged " + NatToString(n) + " observations, showing active monitoring. "
  }

  /** Sentences in strictly increasing rank: each at most once, in text order. */
  predicate Ranked(xs: seq<Sentence>) {
    |xs| <= 1 || (Rank(xs[0]) < Rank(xs[1]) && Ranked(xs[1..]))
  }

  lemma RankedPrepend(x: Sentence, xs: seq<Sentence>)
    requires Ranked(xs) && (xs == [] || Rank(x) < Rank(xs[0]))
    ensures Ranked([x] + xs)
  {
    assert ([x] + xs)[1..] == xs;
  }

  /** The sentences the counts earn, in text order. */
  function Praises(d: map<EntryType, nat>): (r: seq<Sentence>)
    ensures |r| <= 4
    ensures r == [] <==> Medication !in d && Social !in d && Activity !in d && Meal !in d && Observation !in d
  {
    (if Medication in d then [MedicationPraise(d[Medication])] else [])
    + ((if Social in d then [SocialPraise(d[Social])] else [])
       + ((if Activity in d || Meal in d then [RoutinePraise] else [])
          + (if Observation in d then [ObservationPraise(d[Observation])] else [])))
  }

  /** The medication count is praised when medication occurs, the social count
      when social occurs, routines when activity or meal occurs, the observation
      count when observation occurs, and nothing else. */
  lemma PraisesExact(d: map<EntryType, nat>)
    ensures forall n :: MedicationPraise(n) in Praises(d) <==> Medication in d && d[Medication] == n
    ensures forall n :: SocialPraise(n) in Praises(d) <==> Social in d && d[Social] == n
    ensures RoutinePraise in Praises(d) <==> Activity in d || Meal in d
    ensures forall n :: ObservationPraise(n) in Praises(d) <==> Observation in d && d[Observation] == n
  {
  }

  /** Each sentence comes at most once, in the order medication, social, routine,
      observation. */
  lemma PraisesInOrder(d: map<EntryType, nat>)
    ensures Ranked(Praises(d))
  {
    var o := if Observation in d then [ObservationPraise(d[Observation])] else [];
    var ro := (if Activity in d || Meal in d then [RoutinePraise] else []) + o;
    var sro := (if Social in d then [SocialPraise(d[Social])] else []) + ro;
    assert Praises(d) == (if Medication in d then [MedicationPraise(d[Medication])] else []) + sro;
    if Activity in d || Meal in d {
      RankedPrepend(RoutinePraise, o);
    } else {
      assert ro == o;
    }
    assert ro == [] || Rank(ro[0]) >= 2;
    if Social in d {
      RankedPrepend(SocialPraise(d[Social]), ro);
    } else {
      assert sro == ro;
    }
    assert sro == [] || Rank(sro[0]) >= 1;
    if Medication in d {
      RankedPrepend(MedicationPraise(d[Medication]), sro);
    } else {
      assert Praises(d) == sro;
    }
  }

  /** The sentences written one after another. */
  function Join(xs: seq<Sentence>): (r: string)
    ensures r == [] <==> xs == []
  {
    if xs == [] then "" else SentenceText(xs[0]) + Join(xs[1..])
  }

  /** The praise part of the summary: empty exactly when none of the praised types
      occurs. */
  function Praise(d: map<EntryType, nat>): (r: string)
    ensures r == [] <==> Medication !in d && Social !in d && Activity !in d && Meal !in d && Observation !in d
  {
    Join(Praises(d))
  }

  lemma Framed(a: string, b: string, c: string)
    ensures |a + b + c| >= |a| + |c|
    ensures (a + b + c)[..|a|] == a
    ensures (a + b + c)[|a + b + c| - |c|..] == c
    ensures (a + b + c)[|a|..|a + b + c| - |c|] == b
  {
    assert a + b + c == a + (b + c);
  }

  /** generate_ai_summary. */
  function AiSummary(results: seq<(EntryType, nat)>, total: nat, period: Period): (summary: string)
    ensures results == [] ==>
      summary == "No activities were logged " + PeriodText(period) + ". Try to log daily activities to track progress."
    ensures results != [] ==>
      |summary| >= |Opening(total, period)| + |Closing|
      && summary[..|Opening(total, period)|] == Opening(total, period)
      && summary[|summary| - |Closing|..] == Closing
      && summary[|Opening(total, period)|..|summary| - |Closing|] == Praise(ToDict(results))
  {
    if results == [] then
      "No activities were logged " + PeriodText(period) + ". Try to log daily activities to track progress."
    else
      Framed(Opening(total, period), Praise(ToDict(results)), Closing);
      Opening(total, period) + Praise(ToDict(results)) + Closing
  }

  /** The longest run of digits at the start of s. */
  function LeadingDigits(s: string): (r: string)
    ensures |r| <= |s| && r == s[..|r|]
    ensures forall i :: 0 <= i < |r| ==> IsDigit(r[i])
  {
    if s != [] && IsDigit(s[0]) then [s[0]] + LeadingDigits(s[1..]) else []
  }

  lemma {:induction false} LeadingDigitsOfNumeral(digits: string, rest: string)
    requires forall i :: 0 <= i < |digits| ==> IsDigit(digits[i])
    requires rest != [] && !IsDigit(rest[0])
    ensures LeadingDigits(digits + rest) == digits
  {
    if digits != [] {
      assert (digits + rest)[1..] == digits[1..] + rest;
      LeadingDigitsOfNumeral(digits[1..], rest);
    } else {
      assert digits + rest == rest;
    }
  }

  /** The number a reader finds after "You had ". */
  function ReportedTotal(summary: string): Option<nat> {
    if |summary| >= |YouHad| && summary[..|YouHad|] == YouHad then
      var digits := LeadingDigits(summary[|YouHad|..]);
      if digits == [] then None else Some(DigitsValue(digits))
    else None
  }

  lemma ReportedTotalOfOpening(n: nat, rest: string)
    requires rest != [] && rest[0] == ' '
    ensures ReportedTotal(YouHad + (NatToString(n) + rest)) == Some(n)
  {
    var s := YouHad + (NatToString(n) + rest);
    assert s[..|YouHad|] == YouHad;
    assert s[|YouHad|..] == NatToString(n) + rest;
    LeadingDigitsOfNumeral(NatToString(n), rest);
    NatToStringRoundTrip(n);
  }

  lemma Regroup(a: string, b: string, c: string, d: string, e: string)
    ensures a + b + c + d + e == a + (b + (c + d + e))
  {
  }

  /** A non-empty summary reports exactly the total it was given. */
  lemma SummaryReportsTotal(results: seq<(EntryType, nat)>, total: nat, period: Period)
    requires results != []
    ensures ReportedTotal(AiSummary(results, total, period)) == Some(total)
  {
    var after, praise := AfterTotal(period), Praise(ToDict(results));
    var numeral := NatToString(total);
    assert AiSummary(results, total, period) == Opening(total, period) + praise + Closing;
    Regroup(YouHad, numeral, after, praise, Closing);
    var rest := after + praise + Closing;
    assert rest[0] == after[0];
    ReportedTotalOfOpening(total, rest);
  }

  /** The ENUM list names no type twice. */
  lemma EntryTypesDistinct()
    ensures Distinct(EntryTypes)
  {
    forall t ensures Occurrences(EntryTypes, t) == 1 {
      EachTypeListedOnce(t);
    }
  }

  lemma OccursListed(types: seq<EntryType>, t: EntryType)
    requires Occurrences(types, t) > 0
    ensures t in types
  {
  }

  /** The dictionary built from the grouped rows holds exactly the types that
      occur in the window, each with its count. */
  lemma WindowCountsInDict(es: seq<Entry>, pid: Id, period: Period, today: Date)
    ensures var d := ToDict(Groups(es, pid, period, today, EntryTypes));
      forall t :: (t in d <==> CountOfType(es, pid, period, today, t) > 0)
                  && (t in d ==> d[t] == CountOfType(es, pid, period, today, t))
  {
    var rows := Groups(es, pid, period, today, EntryTypes);
    var d := ToDict(rows);
    EntryTypesDistinct();
    GroupsDistinct(es, pid, period, today, EntryTypes);
    GroupsComplete(es, pid, period, today, EntryTypes);
    forall t ensures (t in d <==> CountOfType(es, pid, period, today, t) > 0)
                     && (t in d ==> d[t] == CountOfType(es, pid, period, today, t))
    {
      EachTypeListedOnce(t);
      OccursListed(EntryTypes, t);
      if t in d {
        var i :| 0 <= i < |rows| && rows[i].0 == t;
        assert forall j :: i < j < |rows| ==> rows[j].0 != rows[i].0;
      }
    }
  }

  /** What the summary screen shows below its header. */
  datatype SummaryView =
    | NoPatientData
    | NoEntries
    | Report(groups: seq<(EntryType, nat)>, total: nat, text: string)

  /** generate_summary once its patient is resolved: nothing without a truthy
      patient id, a notice when the window holds no entries, otherwise the grouped
      counts, their total and the summary text. */
  function SummaryOf(scope: Option<Id>, entries: seq<Entry>, period: Period, today: Date): (v: SummaryView)
    ensures !Truthy(scope) <==> v == NoPatientData
    ensures v == NoEntries ==> CountInWindow(entries, scope.value, period, today) == 0
    ensures v.Report? ==>
      v.total == CountInWindow(entries, scope.value, period, today) > 0
      && ReportedTotal(v.text) == Some(v.total)
    ensures v.Report? ==> v.groups == Groups(entries, scope.value, period, today, EntryTypes) && DistinctKeys(v.groups)
    ensures v.Report? ==>
      |v.text| >= |Opening(v.total, period)| + |Closing|
      && v.text[|Opening(v.total, period)|..|v.text| - |Closing|] == Praise(ToDict(v.groups))
    ensures v.Report? ==> v.text == AiSummary(v.groups, v.total, period)
  {
    if !Truthy(scope) then NoPatientData
    else
      var groups := Groups(entries, scope.value, period, today, EntryTypes);
      GroupedTotalCountsWindow(entries, scope.value, period, today);
      if groups == [] then NoEntries
      else
        var total := GroupTotal(groups);
        assert total >= groups[0].1 > 0;
        SummaryReportsTotal(groups, total, period);
        EntryTypesDistinct();
        GroupsDistinct(entries, scope.value, period, today, EntryTypes);
        Report(groups, total, AiSummary(groups, total, period))
  }

  /** The sentences of a summary praise exactly what the window holds: the
      medication and social counts when those types occur, routines when activity
      or meal occurs, the observation count when observations occur. */
  lemma SummaryPraisesWindow(es: seq<Entry>, pid: Id, period: Period, today: Date)
    ensures var praised := Praises(ToDict(Groups(es, pid, period, today, EntryTypes)));
      && (forall n :: MedicationPraise(n) in praised <==> n == CountOfType(es, pid, period, today, Medication) > 0)
      && (forall n :: SocialPraise(n) in praised <==> n == CountOfType(es, pid, period, today, Social) > 0)
      && (RoutinePraise in praised <==>
            CountOfType(es, pid, period, today, Activity) > 0 || CountOfType(es, pid, period, today, Meal) > 0)
      && (forall n :: ObservationPraise(n) in praised <==> n == CountOfType(es, pid, period, today, Observation) > 0)
  {
    var d := ToDict(Groups(es, pid, period, today, EntryTypes));
    WindowCountsInDict(es, pid, period, today);
    PraisesExact(d);
    assert Medication in d <==> CountOfType(es, pid, period, today, Medication) > 0;
    assert Social in d <==> CountOfType(es, pid, period, today, Social) > 0;
    assert Observation in d <==> CountOfType(es, pid, period, today, Observation) > 0;
    assert Activity in d <==> CountOfType(es, pid, period, today, Activity) > 0;
    assert Meal in d <==> CountOfType(es, pid, period, today, Meal) > 0;
  }
}

=== FILE: Text.dfy ===
/** The string handling of the core: decimal numerals (Python's str() and int()),
    strftime's zero-padded HH:MM:SS, slicing, the enum names that end up in audit
    details, and the 100-character description preview. */
module Text {
  import opened Records

  predicate IsDigit(c: char) { '0' <= c <= '9' }

  /** A non-empty run of ASCII digits. */
  predicate IsDigits(s: string) {
    |s| > 0 && forall i :: 0 <= i < |s| ==> IsDigit(s[i])
  }

  function DigitChar(d: nat): (c: char)
    requires d < 10
    ensures IsDigit(c) && c as int - '0' as int == d
  {
    ('0' as int + d) as char
  }

  /** str(n) for a non-negative int. */
  function NatToString(n: nat): (s: string)
    ensures IsDigits(s)
    ensures n < 10 <==> |s| == 1
    ensures |s| > 1 ==> s[0] != '0'
  {
    if n < 10 then [DigitChar(n)] else NatToString(n / 10) + [DigitChar(n % 10)]
  }

  /** The value of a digit string read in base ten. */
  function DigitsValue(s: string): nat
    requires forall i :: 0 <= i < |s| ==> IsDigit(s[i])
  {
    if s == [] then 0
    else
      assert IsDigit(s[|s| - 1]);
      DigitsValue(s[..|s| - 1]) * 10 + (s[|s| - 1] as int - '0' as int)
  }

  /** Python's int() applied to an already stripped field: an optional sign followed
      by ASCII digits; anything else raises ValueError, modelled as None. */
  function ParseInt(s: string): (r: Option<int>)
    ensures r.Some? <==> IsDigits(s) || (|s| > 1 && (s[0] == '+' || s[0] == '-') && IsDigits(s[1..]))
    ensures r.Some? && IsDigits(s) ==> r.value >= 0
  {
    if IsDigits(s) then Some(DigitsValue(s))
    else if |s| > 1 && s[0] == '-' && IsDigits(s[1..]) then Option<int>.Some(-(DigitsValue(s[1..]) as int))
    else if |s| > 1 && s[0] == '+' && IsDigits(s[1..]) then Some(DigitsValue(s[1..]))
    else None
  }

  /** Reading back what str() wrote gives the number again. */
  lemma {:induction false} NatToStringRoundTrip(n: nat)
    ensures DigitsValue(NatToString(n)) == n
  {
    if n >= 10 {
      var s := NatToString(n);
      assert s[..|s| - 1] == NatToString(n / 10);
      NatToStringRoundTrip(n / 10);
    }
  }

  /** int(str(n)) == n, the round trip the caregiver form relies on when an id is
      typed back in. */
  lemma ParseIntOfNatToString(n: nat)
    ensures ParseInt(NatToString(n)) == Some(n)
  {
    NatToStringRoundTrip(n);
  }

  /** A sign in front of the digits: '+' keeps the value, '-' negates it. */
  lemma ParseIntSigned(s: string)
    requires IsDigits(s)
    ensures ParseInt("+" + s) == ParseInt(s)
    ensures ParseInt("-" + s) == Some(-ParseInt(s).value)
  {
    assert ("+" + s)[1..] == s && ("+" + s)[0] == '+';
    assert ("-" + s)[1..] == s && ("-" + s)[0] == '-';
  }

  /** A leading zero adds nothing to a digit run's value. */
  lemma {:induction false} DigitsValueLeadingZero(s: string)
    requires forall i :: 0 <= i < |s| ==> IsDigit(s[i])
    ensures DigitsValue("0" + s) == DigitsValue(s)
  {
    if s != [] {
      var t := "0" + s;
      assert t[..|t| - 1] == "0" + s[..|s| - 1];
      assert t[|t| - 1] == s[|s| - 1];
      DigitsValueLeadingZero(s[..|s| - 1]);
    }
  }

  /** int() reads a zero-padded numeral as the number without the padding. */
  lemma ParseIntLeadingZero(s: string)
    requires IsDigits(s)
    ensures ParseInt("0" + s) == ParseInt(s)
  {
    assert IsDigits("0" + s) by {
      assert forall i :: 1 <= i < |"0" + s| ==> ("0" + s)[i] == s[i - 1];
    }
    DigitsValueLeadingZero(s);
  }

  /** What a typed patient id such as "5", "+5", "-5" or "05" is read as. */
  lemma ParseIntExamples()
    ensures ParseInt("5") == Some(5) && ParseInt("+5") == Some(5) && ParseInt("-5") == Some(-5)
    ensures ParseInt("05") == Some(5) && ParseInt("5a") == None && ParseInt("+") == None
  {
    ParseIntOfNatToString(5);
    assert NatToString(5) == "5";
    ParseIntSigned("5");
    ParseIntLeadingZero("5");
    assert !IsDigits("5a") by { assert !IsDigit("5a"[1]); }
    assert !IsDigits("5a"[1..]) by { assert !IsDigit("5a"[1]); }
  }

  /** str() is injective on non-negative numbers. */
  lemma NatToStringInjective(m: nat, n: nat)
    requires NatToString(m) == NatToString(n)
    ensures m == n
  {
    NatToStringRoundTrip(m);
    NatToStringRoundTrip(n);
  }

  /** strftime's %H, %M or %S: two digits, zero-padded. */
  function TwoDigits(n: nat): (s: string)
    requires n < 100
    ensures |s| == 2 && IsDigit(s[0]) && IsDigit(s[1])
  {
    [DigitChar(n / 10), DigitChar(n % 10)]
  }

  lemma TwoDigitsInjective(m: nat, n: nat)
    requires m < 100 && n < 100
    ensures TwoDigits(m) == TwoDigits(n) <==> m == n
  {
    if TwoDigits(m) == TwoDigits(n) {
      assert TwoDigits(m)[0] == TwoDigits(n)[0] && TwoDigits(m)[1] == TwoDigits(n)[1];
    }
  }

  /** strftime('%H:%M:%S'). */
  function FormatTime(t: TimeOfDay): (s: string)
    ensures |s| == 8 && s[2] == ':' && s[5] == ':'
    ensures forall i :: 0 <= i < 8 && i != 2 && i != 5 ==> IsDigit(s[i])
  {
    TwoDigits(t.hour) + ":" + TwoDigits(t.minute) + ":" + TwoDigits(t.second)
  }

  /** Python's s[:n], and SQL's LIMIT n on an ordered result. */
  function Head<T>(s: seq<T>, n: nat): (r: seq<T>)
    ensures |r| == if |s| <= n then |s| else n
    ensures r == s[..|r|]
  {
    if |s| <= n then s else s[..n]
  }

  /** The reminder poll's test, `time_str[:5] == current_time[:5]`, on two formatted
      times. */
  predicate SameMinuteText(a: TimeOfDay, b: TimeOfDay) {
    Head(FormatTime(a), 5) == Head(FormatTime(b), 5)
  }

  /** Comparing the first five characters of HH:MM:SS compares hour and minute and
      ignores the seconds. */
  lemma SameMinuteTextIff(a: TimeOfDay, b: TimeOfDay)
    ensures SameMinuteText(a, b) <==> a.hour == b.hour && a.minute == b.minute
  {
    var fa, fb := FormatTime(a), FormatTime(b);
    assert Head(fa, 5) == TwoDigits(a.hour) + ":" + TwoDigits(a.minute);
    assert Head(fb, 5) == TwoDigits(b.hour) + ":" + TwoDigits(b.minute);
    TwoDigitsInjective(a.hour, b.hour);
    TwoDigitsInjective(a.minute, b.minute);
    if Head(fa, 5) == Head(fb, 5) {
      assert TwoDigits(a.hour) == Head(fa, 5)[..2] == Head(fb, 5)[..2] == TwoDigits(b.hour);
      assert TwoDigits(a.minute) == Head(fa, 5)[3..] == Head(fb, 5)[3..] == TwoDigits(b.minute);
    }
  }

  /** `description[:100] + "..." if len(description) > 100 else description`. */
  function Preview(description: string): (r: string)
    ensures |r| <= 103
    ensures |description| <= 100 ==> r == description
    ensures |description| > 100 ==> |r| == 103 && r[..100] == description[..100] && r[100..] == "..."
  {
    if |description| > 100 then description[..100] + "..." else description
  }

  /** The preview always opens with the description's own first characters, up to
      100 of them, and it is short only when the description is. */
  lemma PreviewKeepsOpening(description: string)
    ensures var k := if |description| < 100 then |description| else 100;
            Preview(description)[..k] == description[..k]
    ensures |Preview(description)| < 100 <==> |description| < 100
  {
  }

  /** The Python spelling of a role, as stored in the ENUM columns. */
  function RoleName(r: Role): string {
    match r
    case Patient => "patient"
    case Caregiver => "caregiver"
    case Doctor => "doctor"
  }

  /** The label login writes into its audit details. */
  /** The role as the LOGIN detail spells it: the ENUM name with a capital. */
  function RoleLabel(r: Role): (s: string)
    ensures |s| == |RoleName(r)| && s[1..] == RoleName(r)[1..]
    ensures s[0] as int == RoleName(r)[0] as int - 32
  {
    match r
    case Patient => "Patient"
    case Caregiver => "Caregiver"
    case Doctor => "Doctor"
  }

  /** The ENUM value of an entry type: a lower-case word. */
  function EntryTypeName(t: EntryType): (s: string)
    ensures |s| > 0 && forall i :: 0 <= i < |s| ==> 'a' <= s[i] <= 'z'
  {
    match t
    case Meal => "meal"
    case Medication => "medication"
    case Appointment => "appointment"
    case Social => "social"
    case Note => "note"
    case Activity => "activity"
    case Observation => "observation"
  }

  function ReminderTypeName(t: ReminderType): string {
    match t
    case MedicationReminder => "medication"
    case AppointmentReminder => "appointment"
    case EventReminder => "event"
    case OtherReminder => "other"
  }
}
